=== FILE: README.md ===
# H.265 RTP depacketizer

A Dafny model of `H265Depacketizer` from media-server-cxx
(`src/h265/H265Depacketizer.cpp`). The depacketizer takes RTP payloads one at
a time and builds a video frame. In the frame buffer, every elementary unit is
preceded by its length as a 4-byte big-endian number. Next to the buffer it
keeps one record per appended region: the offset, the size and the header
bytes that were stripped from the packet. Three payload shapes are handled:
- a single unit, where the whole payload is one unit;
- an aggregation packet: after a 2-byte payload header, a run of sub-units,
  each with a 2-byte length;
- a fragmentation unit. The start fragment reserves four bytes for the
  length and appends a header byte it builds from the payload header and the
  FU header. Middle fragments append their bodies. The end fragment writes
  the length into the reserved bytes.

The model is a pure state machine. `Depacketizer(frame, iniFragNALU,
startedFrag)` is the state. `AddPayload` and `AddPacket` return the next state
and what the C++ returns: `Some(frame)` for `&frame` and `None` for `NULL`.

Modules:
- `Bytes`: bytes as integers 0..255, `get2`, `set4` with its DWORD truncation,
  and the header bit fields. The masks are written as arithmetic, and lemmas
  relate each one to its `bv8` form.
- `MediaFrame`: the part of `MediaFrame` the depacketizer uses.
- `UnitStream`: the length-prefixed buffer format. `Framed` writes it and
  `Unframe` reads it.
- `Aggregation`: the sub-units the aggregation loop accepts.
- `H265Depacketizer`: the operations.
- `DepacketizerProperties`: what they guarantee, for one call and for runs
  of calls.
- `FragmentRecovery`: when the finished units of a frame still read back as
  length-prefixed units, the one input that breaks this (see "## Findings"),
  and a corrected call that drops an unfinished unit.

The model follows the code, not RFC 7798:
- The unit type is read as `payload[0] & 0x1f`, a 5-bit field. Section 1.1.4
  of RFC 7798 puts a 6-bit type in bits 1-6.
- The code dispatches on the H.264 values 24 (aggregation) and 29
  (fragmentation unit). It still uses the H.265 layout: a 2-byte payload
  header, and the FU header at byte 2 (sections 4.4.2 and 4.4.3 of RFC 7798,
  where those packet types are 48 and 49).
- The consequences are stated as lemmas:
  - The undefined-type branch (35-38) can never be taken.
  - Of the intra types 19, 20, 33 and 34, only 19 and 20 can match.
  - An RFC 7798 aggregation or fragmentation packet goes down the single-unit
    branch.
  - A start fragment raises the intra flag only for type 5. A fragmented IDR
    unit (19, 20) leaves the flag as it was.

`MediaFrame` and `RTPPacket` are not part of this model. Their operations are
given the meaning the depacketizer relies on:
- `AppendMedia` appends and returns the offset where the new bytes start.
- `AddRtpPacket` appends one record and changes nothing else; `SetIntra`
  raises the flag and changes nothing else.
- `Reset` empties the buffer and the records, clears the intra flag, and puts
  the timestamp back to the sentinel `(DWORD)-1` that line 44 tests. It keeps
  the clock rate, time, sender time and SSRC; `AddPacket` overwrites all four
  on a new frame.
- `set4` writes the low 32 bits of its value, big-endian.

The constructor (lines 15-19) only builds the frame and sets its clock rate
to 90000. The class declaration is not part of this model, so the initial
values of `startedFrag` and `iniFragNALU` are not visible. `Init` assumes they
start as `false` and `0`, and that the new frame looks like a reset one: no
timestamp and an empty buffer.

## Model

| member | source | states |
|---|---|---|
| Bytes.Get2 | src/h265/H265Depacketizer.cpp:145 | the 2-byte length read at the head of each sub-unit is below 65536, with the first byte as the high byte and the second as the low byte |
| Bytes.Be16 | src/h265/H265Depacketizer.cpp:145 | the two bytes a sub-unit length is written as read back through `get2` as that length |
| Bytes.Be32 | src/h265/H265Depacketizer.cpp:174 | `set4(nalHeader, 0, n)` writes four bytes; what they hold is stated by `ReadBe32Be32` and `Be32OfRead` |
| Bytes.ReadBe32Be32 | src/h265/H265Depacketizer.cpp:174 | the 4-byte prefix `set4` writes reads back as the length modulo 2^32, and as the exact length below 2^32 |
| Bytes.Be32OfRead | src/h265/H265Depacketizer.cpp:174 | writing back the number four bytes hold gives the same four bytes: the prefix format has no redundancy |
| Bytes.Be32Injective | src/h265/H265Depacketizer.cpp:278 | two lengths below 2^32 get the same prefix only when they are equal |
| Bytes.SpliceFields | src/h265/H265Depacketizer.cpp:214-217 | the rebuilt unit header keeps the type bits of the FU header under the F/type-high bits of the payload header |
| Bytes.Low5Bitwise | src/h265/H265Depacketizer.cpp:86 | `b & 0x1f` is the remainder of `b` modulo 32 |
| Bytes.High3Bitwise | src/h265/H265Depacketizer.cpp:214 | `b & 0xe0` is `b` with its low five bits cleared |
| Bytes.SpliceBitwise | src/h265/H265Depacketizer.cpp:214 | the bitwise or of `a & 0xe0` and `c & 0x1f` is the high bits of `a` plus the low bits of `c` |
| Bytes.FlagBitsBitwise | src/h265/H265Depacketizer.cpp:204-205 | the S and E tests on the FU header are the top bit and the next bit |
| MediaFrame.Reset | src/h265/H265Depacketizer.cpp:28 | a reset frame has an empty buffer, no records, no intra flag and the sentinel timestamp, and keeps its clock rate, times and SSRC |
| MediaFrame.AppendMedia | src/h265/H265Depacketizer.cpp:179 | appending returns the old length as the offset, and the bytes from that offset are exactly the appended ones |
| MediaFrame.NewFrame | src/h265/H265Depacketizer.cpp:15-18 | the frame the constructor builds has an empty buffer, no records, no intra flag, no timestamp and the given clock rate |
| MediaFrame.SetIntra | src/h265/H265Depacketizer.cpp:169 | `SetIntra(true)` raises the intra flag and leaves the buffer, the records and the metadata alone |
| MediaFrame.AddRtpPacket | src/h265/H265Depacketizer.cpp:181 | one record is added after the existing ones, which are unchanged; the buffer, the intra flag and the metadata stay as they were |
| MediaFrame.Set4 | src/h265/H265Depacketizer.cpp:256 | the four patched bytes read back as the value modulo 2^32, and no other byte or field changes |
| UnitStream.FramedLengthIsLength | src/h265/H265Depacketizer.cpp:174-179 | the buffer holds four bytes per unit plus the units' bytes |
| UnitStream.UnframeFramed | src/h265/H265Depacketizer.cpp:174-179 | reading a length-prefixed buffer gives back the units written |
| UnitStream.FramedUnframe | src/h265/H265Depacketizer.cpp:174-179 | a buffer that reads as some units is exactly the one written for them, and each unit is below 2^32 bytes |
| UnitStream.FramedAppend | src/h265/H265Depacketizer.cpp:174-179 | writing two lists of units one after the other is writing their concatenation |
| UnitStream.UnframeHead | src/h265/H265Depacketizer.cpp:174-179 | four bytes holding a unit's length, the unit, then a readable tail read as that unit followed by the tail's units |
| UnitStream.UnframeAppend | src/h265/H265Depacketizer.cpp:174-179 | units written after a readable buffer read back after its units |
| UnitStream.UnframeSnoc | src/h265/H265Depacketizer.cpp:254-256 | one unit written with its length after a readable buffer reads back as its last unit |
| Aggregation.SubUnits | src/h265/H265Depacketizer.cpp:142-154 | every accepted sub-unit is non-empty and below 65536 bytes |
| Aggregation.SubUnitsWithinBody | src/h265/H265Depacketizer.cpp:142-154 | the accepted sub-units and their 2-byte lengths fit in the body: no byte past the payload is read |
| Aggregation.SubUnitsAggregate | src/h265/H265Depacketizer.cpp:151-154 | an aggregation body followed by a zero length, a length past the end or a short tail parses as exactly the sub-units written |
| Aggregation.SubUnitsRoundTrip | src/h265/H265Depacketizer.cpp:142-185 | an aggregation body with nothing after it parses as exactly the sub-units written |
| Aggregation.SubUnitsPrefix | src/h265/H265Depacketizer.cpp:142-185 | the accepted sub-units, with their lengths written back, are a prefix of the body: the loop skips no byte |
| H265Depacketizer.Init | src/h265/H265Depacketizer.cpp:15-19 | the constructed depacketizer has the 90 kHz clock rate; with the assumed initial values (no timestamp, an empty buffer, no pending fragment) it meets the invariant |
| H265Depacketizer.ResetFrame | src/h265/H265Depacketizer.cpp:25-33 | after a reset the buffer and records are empty, intra is cleared, there is no timestamp and no fragment is pending, so the invariant holds |
| H265Depacketizer.AppendNal | src/h265/H265Depacketizer.cpp:263-286 | one unit appended: its 4-byte length, its bytes unchanged, one record at its bytes with no header; intra raised exactly for types 19, 20, 33 and 34 |
| H265Depacketizer.StartFragment | src/h265/H265Depacketizer.cpp:211-234 | a start fragment remembers the old buffer end, reserves four zero bytes there and appends the rebuilt header; intra raised exactly for type 5 |
| H265Depacketizer.AppendFragmentBody | src/h265/H265Depacketizer.cpp:241-244 | a fragment's bytes after its three header bytes are appended, with one record that keeps those three bytes |
| H265Depacketizer.EndFragment | src/h265/H265Depacketizer.cpp:246-260 | with the reserved bytes outside the buffer the call returns `NULL` and changes nothing; otherwise they are patched with the byte count after them and the fragment state is cleared |
| H265Depacketizer.AddSingleNal | src/h265/H265Depacketizer.cpp:263-286 | a single unit adds its 4-byte length and the whole payload, one record at the payload's bytes with no header, returns the frame, and leaves the fragment state alone |
| H265Depacketizer.AggregationLoop | src/h265/H265Depacketizer.cpp:142-185 | the loop only extends the buffer and the records, never clears intra, leaves the metadata alone, and adds nothing when at most two bytes are left |
| H265Depacketizer.AddAggregation | src/h265/H265Depacketizer.cpp:105-186 | an aggregation packet returns the frame, only extends the buffer and the records, leaves the fragment state alone, and changes nothing when it has at most four bytes |
| H265Depacketizer.AddFragment | src/h265/H265Depacketizer.cpp:187-262 | a fragment under three bytes, or a non-start fragment with no unit pending, returns `NULL` and changes nothing; otherwise the records only grow, the buffer never shrinks and the metadata stays. Its branches are stated by `AddFragmentValid` and the fragment lemmas of `DepacketizerProperties` |
| H265Depacketizer.AddPayload | src/h265/H265Depacketizer.cpp:66-74 | a payload shorter than two bytes returns `NULL` and changes nothing; a returned frame is the frame held |
| H265Depacketizer.AddPayloadKeeps | src/h265/H265Depacketizer.cpp:66-290 | every call keeps the invariant, never clears the intra flag and leaves timestamp, clock rate, times and SSRC alone |
| H265Depacketizer.AddPacket | src/h265/H265Depacketizer.cpp:35-64 | the frame is returned exactly when the marker is set; the frame carries the packet's timestamp and SSRC; the invariant is kept |
| H265Depacketizer.AggregationLoopIsAppendNals | src/h265/H265Depacketizer.cpp:142-185 | the aggregation loop appends exactly the accepted sub-units, in order |
| H265Depacketizer.AppendNalsBuffer | src/h265/H265Depacketizer.cpp:173-179 | appending units adds their length-prefixed form to the buffer |
| H265Depacketizer.AppendNalsRecords | src/h265/H265Depacketizer.cpp:179-181 | appending units adds one record per unit, each at the unit's bytes |
| H265Depacketizer.AppendNalsIntra | src/h265/H265Depacketizer.cpp:161-171 | appending units raises intra exactly when one of them has an intra type |
| H265Depacketizer.AddFragmentValid | src/h265/H265Depacketizer.cpp:187-262 | the fragment branch keeps the invariant, never clears intra and leaves the metadata alone |
| DepacketizerProperties.TypeFieldBelow32 | src/h265/H265Depacketizer.cpp:86-104 | the masked type is below 32, so the 35-38 branch is never taken and only 19 and 20 count as intra |
| DepacketizerProperties.Rfc7798IntraTypesNotDetected | src/h265/H265Depacketizer.cpp:161-171 | a header carrying an RFC 7798 IDR or parameter-set type (19, 20, 32-34) is not taken as intra |
| DepacketizerProperties.Rfc7798PacketTypesTakenAsSingle | src/h265/H265Depacketizer.cpp:97-105 | a header carrying the RFC 7798 aggregation or fragmentation type (48, 49) matches neither 24 nor 29 |
| DepacketizerProperties.SingleNalAppended | src/h265/H265Depacketizer.cpp:263-286 | a single unit adds its 4-byte length and the whole payload, one record with no header, and the new region reads back as that one unit |
| DepacketizerProperties.AggregationAppended | src/h265/H265Depacketizer.cpp:137-185 | an aggregation adds the accepted sub-units in order, each length-prefixed and with one record, and the new region reads back as exactly those sub-units |
| DepacketizerProperties.AggregationRecordsLocateUnits | src/h265/H265Depacketizer.cpp:176-181 | the record added for each sub-unit names exactly that sub-unit's bytes in the new buffer |
| DepacketizerProperties.AppendedRecordLocates | src/h265/H265Depacketizer.cpp:176-181 | each record appended for a list of units names that unit's bytes after the old buffer |
| DepacketizerProperties.NalRecordsLocate | src/h265/H265Depacketizer.cpp:176-181 | the records of a list of framed units name each unit's bytes |
| DepacketizerProperties.AggregationKeepsEarlierUnits | src/h265/H265Depacketizer.cpp:151-154 | a zero length, a length past the end or a short tail stops the loop, and every sub-unit before it stays in the buffer |
| DepacketizerProperties.OrphanFragmentIgnored | src/h265/H265Depacketizer.cpp:236-239 | a non-start fragment with no pending unit returns `NULL` and changes nothing |
| DepacketizerProperties.StartFragmentAppended | src/h265/H265Depacketizer.cpp:211-244 | a start fragment adds four zero bytes, the rebuilt header and its body, and one record keeping its three header bytes |
| DepacketizerProperties.MiddleFragmentAppended | src/h265/H265Depacketizer.cpp:236-244 | a middle fragment of a pending unit adds its body and one record, and the unit stays pending |
| DepacketizerProperties.EndFragmentPatches | src/h265/H265Depacketizer.cpp:241-260 | an end fragment adds its body and one record keeping its three header bytes; the reserved bytes then hold the count of bytes after them, no other byte changes, and the fragment state is cleared |
| DepacketizerProperties.EndFragmentRecord | src/h265/H265Depacketizer.cpp:241-244 | the end fragment of a pending unit adds exactly one record: at the old buffer end, its body's size, its three header bytes |
| DepacketizerProperties.NullReturns | src/h265/H265Depacketizer.cpp:72-74 | with the invariant, `NULL` comes back exactly for a payload under two bytes, a fragment under three bytes, or a fragment with no start seen; the check at lines 250-252 never fails |
| DepacketizerProperties.AppendOnly | src/h265/H265Depacketizer.cpp:66-290 | the buffer never shrinks and old records stay; only the four bytes reserved for a pending unit may change |
| DepacketizerProperties.AppendOnlyFragment | src/h265/H265Depacketizer.cpp:187-262 | the fragment branch only appends, apart from the four reserved bytes |
| DepacketizerProperties.IntraFlag | src/h265/H265Depacketizer.cpp:161-171 | the intra flag after a call is its old value, or-ed with whether the payload carries an intra unit (single or aggregated, types 19/20) or is a start fragment of type 5 |
| DepacketizerProperties.FragmentedIdrNotDetected | src/h265/H265Depacketizer.cpp:216-222 | a fragment whose FU header carries the IDR type 19 or 20 leaves the intra flag unchanged |
| DepacketizerProperties.FeedKeepsValid | src/h265/H265Depacketizer.cpp:225-252 | any run of payloads keeps the invariant and never clears intra |
| DepacketizerProperties.MiddleFragmentsAppended | src/h265/H265Depacketizer.cpp:236-244 | a run of middle fragments appends their bodies and one record each, and the unit stays pending at the same offset |
| DepacketizerProperties.FeedAppend | src/h265/H265Depacketizer.cpp:66-290 | feeding two runs of payloads one after the other is feeding their concatenation |
| DepacketizerProperties.FragmentedUnitReassembled | src/h265/H265Depacketizer.cpp:211-260 | start, middle and end fragments leave one unit after the old buffer: its length (one plus the sum of the bodies), the rebuilt header and the bodies in order; it reads back as that unit; each fragment adds one record at its body, the first five bytes after the old end |
| DepacketizerProperties.Reassemble | src/h265/H265Depacketizer.cpp:211-260 | the start, middle and end steps composed: no fragment pending, the unit closed after the old buffer, and one record per fragment |
| DepacketizerProperties.OpenFragment | src/h265/H265Depacketizer.cpp:211-244 | a start fragment and middle fragments leave the unit pending right after the old buffer, with the reserved bytes, the header byte, the bodies so far and one record per fragment |
| DepacketizerProperties.StartStep | src/h265/H265Depacketizer.cpp:211-244 | a start fragment at the head of a run reserves four bytes at the old end, appends the header and body, adds one record five bytes past the old end and leaves the unit pending there |
| DepacketizerProperties.CloseFragment | src/h265/H265Depacketizer.cpp:241-260 | the end fragment of a pending unit closes it after its prefix and adds one record at the old buffer end |
| DepacketizerProperties.EndFragmentCloses | src/h265/H265Depacketizer.cpp:246-260 | the end fragment of a unit pending after a prefix leaves no fragment pending and the buffer as the prefix, the unit's length, then the header byte and all bodies |
| DepacketizerProperties.RunRecords | src/h265/H265Depacketizer.cpp:241-244 | the records of a run are those of its first fragments followed by the end fragment's, placed after all earlier bodies |
| DepacketizerProperties.FragmentRecordsAppend | src/h265/H265Depacketizer.cpp:241-244 | the records of two runs of fragments are those of the first, then those of the second placed after the first's bodies |
| DepacketizerProperties.BodiesAppend | src/h265/H265Depacketizer.cpp:241-242 | the bodies of two runs of fragments are the bodies of the first, then those of the second |
| DepacketizerProperties.NewTimestampStartsOver | src/h265/H265Depacketizer.cpp:40-58 | a packet with a new timestamp behaves as on a reset depacketizer: its payload is added to the reset frame carrying the packet's timestamp, timing and SSRC, and intra reflects this payload alone |
| DepacketizerProperties.SentinelTimestampAdopted | src/h265/H265Depacketizer.cpp:40-58 | a packet whose timestamp equals the sentinel the frame holds causes no reset: the frame takes the packet's timing and SSRC, then its payload is added |
| DepacketizerProperties.SameTimestampAccumulates | src/h265/H265Depacketizer.cpp:40-58 | a packet with the frame's timestamp adds its payload to the frame in progress, with only the SSRC refreshed |
| DepacketizerProperties.PacketsKeepValid | src/h265/H265Depacketizer.cpp:35-64 | any run of packets keeps the invariant |
| DepacketizerProperties.ReachableValid | src/h265/H265Depacketizer.cpp:15-64 | every state reached from the constructed depacketizer has the invariant |
| DepacketizerProperties.SingleUnitPacketsAccumulate | src/h265/H265Depacketizer.cpp:35-64 | single-unit packets with the frame's timestamp append their payloads, length-prefixed, in arrival order, and raise intra exactly for an intra type |
| DepacketizerProperties.FramedSuffixReads | src/h265/H265Depacketizer.cpp:174-179 | the units written after a prefix read back from the prefix's end |
| DepacketizerProperties.SingleUnitFrame | src/h265/H265Depacketizer.cpp:35-64 | single-unit packets sharing a new timestamp build a frame that is exactly their framed payloads, intra exactly when one is intra, and it reads back as those payloads |
| FragmentRecovery.FramingKept | src/h265/H265Depacketizer.cpp:66-290 | every call except a start fragment while a unit is pending keeps the invariant and leaves the finished part of the buffer readable as length-prefixed units, below 4 GiB |
| FragmentRecovery.AggregationFramingKept | src/h265/H265Depacketizer.cpp:137-185 | an aggregation packet keeps the finished part readable |
| FragmentRecovery.SingleFramingKept | src/h265/H265Depacketizer.cpp:263-286 | a single unit keeps the finished part readable |
| FragmentRecovery.FragmentFramingKept | src/h265/H265Depacketizer.cpp:187-262 | each fragment other than a restart keeps the finished part readable |
| FragmentRecovery.AppendedFramed | src/h265/H265Depacketizer.cpp:173-179 | units appended without touching the fragment state keep the finished part readable |
| FragmentRecovery.EndFragmentFrames | src/h265/H265Depacketizer.cpp:246-260 | an end fragment leaves the bytes before the pending prefix, the patched length, and everything after the prefix with its body: bytes appended by other packets since the start fragment become part of the unit |
| FragmentRecovery.WholeFragmentFrames | src/h265/H265Depacketizer.cpp:211-260 | a fragment with both S and E set appends one length-prefixed unit, its rebuilt header and body, and leaves no fragment pending |
| FragmentRecovery.PatchedFrames | src/h265/H265Depacketizer.cpp:254-259 | patching the reserved prefix writes the length of everything after it and clears the fragment state |
| FragmentRecovery.RestartKeepsPending | src/h265/H265Depacketizer.cpp:224-233 | a start fragment while a unit is pending, then an end fragment: the new unit goes after everything the buffer held, and the pending unit's reserved bytes are never patched |
| FragmentRecovery.LostEndBreaksFraming | src/h265/H265Depacketizer.cpp:224-233 | from the constructed depacketizer, two start fragments and one end fragment leave a buffer that starts with four zero bytes and no longer reads as units |
| FragmentRecovery.RecordsBefore | src/h265/H265Depacketizer.cpp:241-244 | exactly the records lying wholly before a position are kept, in their order and without repeats (a subsequence) |
| FragmentRecovery.RecordsBeforeKeepsAll | src/h265/H265Depacketizer.cpp:241-244 | when every record lies before the position, the filter keeps them all |
| FragmentRecovery.DropPending | src/h265/H265Depacketizer.cpp:224-233 | dropping the pending unit cuts the buffer back to its reserved prefix, keeps exactly the records before it, clears the fragment state, keeps intra and the metadata, and keeps the invariant |
| FragmentRecovery.AddPayloadDropping | src/h265/H265Depacketizer.cpp:66-290 | the corrected call returns the frame it holds, is the code's call on every input but a restart, and on a restart keeps the finished units as a prefix of the buffer |
| FragmentRecovery.DroppingKeepsFraming | src/h265/H265Depacketizer.cpp:224-233 | with the pending unit dropped, every call keeps the invariant and the finished part readable, below 4 GiB |
| FragmentRecovery.RestartDropsPending | src/h265/H265Depacketizer.cpp:224-260 | with the pending unit dropped, a restart and an end fragment leave the finished units followed by the new unit alone |
| FragmentRecovery.DroppingRecovers | src/h265/H265Depacketizer.cpp:224-260 | on the input of `LostEndBreaksFraming` the corrected call leaves the second unit alone, which reads back |

## Left out

- The files around the depacketizer are not part of this model: `src/VideoEncoderWorker.cpp`, `src/jpeg/JPEGEncoder.h`, `include/rtp/RTPStreamTransponder.h`, `include/MediaFrameListenerBridge.h` and `include/SimulcastMediaFrameListener.h`. They hold threads, timers, floating point, a foreign codec library, or only declarations.
- `MediaFrame` and `RTPPacket` internals: their operations are modelled by the meaning described above, not verified.
- The `Debug` log line (line 94): output only.
- The packet's clock, time and sender time are opaque numbers copied into the frame. Nothing is derived from them.
- The buffer length and `iniFragNALU` are unbounded integers. The code keeps them in DWORDs and would wrap past 4 GiB. Truncation is modelled only where the code writes a length through `set4`.
- H265Depacketizer.AddPayload: its own contract states only the short-payload case and the returned pointer. The branch-by-branch behaviour is stated by the `DepacketizerProperties` lemmas, and the invariant by `AddPayloadKeeps`.
- H265Depacketizer.AddPacket: its contract does not say that the clock rate, time and sender time are copied only onto a frame without a timestamp. Three lemmas cover every packet, each reducing the call to `AddPayload` on a stated frame. `NewTimestampStartsOver` covers a new timestamp, `SameTimestampAccumulates` the frame's own set timestamp, and `SentinelTimestampAdopted` a timestamp equal to the sentinel.
- DepacketizerProperties.SingleUnitPacketsAccumulate and DepacketizerProperties.SingleUnitFrame cover frames built from single-unit packets only. For mixed runs the model states the buffer and records call by call, and readability by `FragmentRecovery.FramingKept`. It holds only for runs without a start fragment while a unit is pending (`FragmentRecovery.LostEndBreaksFraming`). A single or aggregation packet between a start and an end fragment is absorbed into the fragmented unit's length (`FragmentRecovery.EndFragmentFrames`). No lemma states the frame of a whole mixed run.
- FragmentRecovery.FramingKept, FragmentRecovery.DroppingKeepsFraming: the buffer is taken to stay below 4 GiB, where the DWORD lengths of the code stop wrapping.
- The destructor and the base-class constructor arguments (media type, codec): they carry no behaviour the depacketizer uses.

## Findings

| source | as written | input that shows it | evidently intended | confidence | as-written member | corrected member |
|---|---|---|---|---|---|---|
| src/h265/H265Depacketizer.cpp:224-233 | a start fragment while another unit is pending overwrites `iniFragNALU`; the pending unit's four zero bytes, header byte and bodies stay in the frame and are never patched | from the constructed depacketizer: start `[29, 0, 0x81, 7]`, start `[29, 0, 0x81, 8]`, end `[29, 0, 0x41, 9]` leave `[0, 0, 0, 0, 1, 7, 0, 0, 0, 3, 1, 8, 9]`, which reads as an empty unit and then a length of 0x01070000 with five bytes left | drop the unfinished unit, its bytes and records, so a lost end fragment costs only that unit and the units before it still read back | medium; not executed | FragmentRecovery.LostEndBreaksFraming | FragmentRecovery.DroppingKeepsFraming |

`FragmentRecovery.AddPayloadDropping` is the corrected call. It agrees with
`AddPayload` on every input except a start fragment while a unit is pending,
so the other lemmas of the model apply to it on all other inputs.

=== FILE: aggregation.dfy ===
/** The body of an aggregation packet, after its 2-byte payload header: a run
    of sub-units, each preceded by its length as a 2-byte big-endian number.

    `SubUnits` is the list of sub-units the depacketizer's loop accepts
    (H265Depacketizer.cpp, lines 142-185): it reads while more than two bytes
    remain and stops at the first declared length that is zero or larger
    than what is left.  `Aggregate` writes such a body; the two are
    inverse, and trailing garbage never takes away a sub-unit already read. */
module Aggregation {
  import opened Bytes
  import opened UnitStream
  import opened SeqFacts

  /** A sub-unit that can travel in an aggregation packet: it is not empty
      and its length fits in two bytes. */
  predicate Carriable(u: seq<byte>)
  {
    0 < |u| < 0x1_0000
  }

  predicate AllCarriable(units: seq<seq<byte>>)
  {
    forall i :: 0 <= i < |units| ==> Carriable(units[i])
  }

  /** A body that cannot start another sub-unit: at most two bytes left, or a
      declared length of zero, or one larger than the bytes after it. */
  predicate Stops(rest: seq<byte>)
  {
    |rest| <= 2 || Get2(rest, 0) == 0 || Get2(rest, 0) > |rest| - 2
  }

  /** The sub-units accepted from the aggregation body `rest`.  Every one is
      a slice of `rest` taken after its own 2-byte length, so together with
      their prefixes they never reach past the end of `rest`. */
  function SubUnits(rest: seq<byte>): (units: seq<seq<byte>>)
    ensures AllCarriable(units)
    decreases |rest|
  {
    if Stops(rest) then []
    else
      var size := Get2(rest, 0);
      [rest[2..2 + size]] + SubUnits(rest[2 + size..])
  }

  /** The accepted sub-units and their 2-byte prefixes fit inside the body:
      no byte past its end is read. */
  lemma {:induction false} SubUnitsWithinBody(rest: seq<byte>)
    ensures 2 * |SubUnits(rest)| + |Concat(SubUnits(rest))| <= |rest|
    decreases |rest|
  {
    if !Stops(rest) {
      var size := Get2(rest, 0);
      var units := SubUnits(rest);
      var tail := SubUnits(rest[2 + size..]);
      SubUnitsWithinBody(rest[2 + size..]);
      assert units == [rest[2..2 + size]] + tail;
      assert units[1..] == tail;
    }
  }

  /** The aggregation body that carries `units`. */
  function Aggregate(units: seq<seq<byte>>): (r: seq<byte>)
    requires AllCarriable(units)
  {
    if units == [] then [] else Be16(|units[0]|) + units[0] + Aggregate(units[1..])
  }

  /** Parsing what `Aggregate` wrote, followed by anything on which the loop
      stops, gives back exactly the sub-units written: a bad length or a
      short tail drops nothing that came before it. */
  lemma {:induction false} SubUnitsAggregate(units: seq<seq<byte>>, tail: seq<byte>)
    requires AllCarriable(units)
    requires Stops(tail)
    ensures SubUnits(Aggregate(units) + tail) == units
  {
    if units != [] {
      var u := units[0];
      var body := Aggregate(units) + tail;
      var after := Aggregate(units[1..]) + tail;
      assert body == Be16(|u|) + u + after;
      assert Get2(body, 0) == Get2(Be16(|u|), 0) == |u|;
      assert body[2..2 + |u|] == u;
      assert body[2 + |u|..] == after;
      SubUnitsAggregate(units[1..], tail);
      assert [u] + units[1..] == units;
    } else {
      assert Aggregate(units) + tail == tail;
    }
  }

  /** With nothing after it, an aggregation body reads back as its sub-units. */
  lemma SubUnitsRoundTrip(units: seq<seq<byte>>)
    requires AllCarriable(units)
    ensures SubUnits(Aggregate(units)) == units
  {
    SubUnitsAggregate(units, []);
    assert Aggregate(units) + [] == Aggregate(units);
  }

  /** The loop reads the body from its first byte without skipping or
      altering any: the accepted sub-units, written back with their 2-byte
      lengths, are a prefix of the body. */
  lemma {:induction false} SubUnitsPrefix(rest: seq<byte>)
    ensures AllCarriable(SubUnits(rest))
    ensures Aggregate(SubUnits(rest)) <= rest
    decreases |rest|
  {
    if !Stops(rest) {
      var size := Get2(rest, 0);
      var u := rest[2..2 + size];
      SubUnitsPrefix(rest[2 + size..]);
      var units := SubUnits(rest);
      assert units == [u] + SubUnits(rest[2 + size..]);
      assert units[1..] == SubUnits(rest[2 + size..]);
      LengthFieldWrittenBack(rest);
      assert Aggregate(units) == rest[..2] + u + Aggregate(SubUnits(rest[2 + size..]));
      SplitThree(rest, 2, 2 + size);
      PrefixAfter(rest[..2] + u, Aggregate(SubUnits(rest[2 + size..])), rest[2 + size..]);
    }
  }

  /** The 2-byte length field, read and written back, is the same two bytes. */
  lemma LengthFieldWrittenBack(rest: seq<byte>)
    requires |rest| >= 2
    ensures Be16(Get2(rest, 0)) == rest[..2]
  {
  }

  lemma PrefixAfter(head: seq<byte>, a: seq<byte>, b: seq<byte>)
    requires a <= b
    ensures head + a <= head + b
  {
    assert (head + b)[..|head + a|] == head + a;
  }
}

=== FILE: bytes.dfy ===
/** Octets, the big-endian helpers `get2`/`set4`, and the bit fields of the
    first payload bytes as the depacketizer reads them.

    A byte is an integer in 0..255.  The source's bit masks are written here
    in arithmetic form: `b & 0x1f` is `b % 32`, `b & 0xe0` is `b - b % 32`,
    `(b & 0x80) == 0x80` is `b >= 128` and `(b & 0x40) == 0x40` is
    `(b / 64) % 2 == 1`.  The `...Bitwise` lemmas at the end relate each of
    them to the `bv8` operator it stands for. */
module Bytes {

  type byte = b: int | 0 <= b < 256

  /** 2^32: a DWORD value, and the 4-byte length prefix, holds a number modulo this. */
  const Two32: int := 0x1_0000_0000

  /** `get2(data, i)`: the 16-bit big-endian number stored at `s[i..i+2]`. */
  function Get2(s: seq<byte>, i: nat): (n: nat)
    requires i + 2 <= |s|
    ensures n < 0x1_0000
    ensures n / 256 == s[i] && n % 256 == s[i + 1]
  {
    s[i] as int * 256 + s[i + 1]
  }

  /** The two bytes `Get2` reads back as `n`. */
  function Be16(n: nat): (r: seq<byte>)
    requires n < 0x1_0000
    ensures |r| == 2 && Get2(r, 0) == n
  {
    [n / 256, n % 256]
  }

  /** The 32-bit big-endian number stored at `s[i..i+4]`. */
  function ReadBe32(s: seq<byte>, i: nat): (n: nat)
    requires i + 4 <= |s|
    ensures n < Two32
  {
    ((s[i] as int * 256 + s[i + 1]) * 256 + s[i + 2]) * 256 + s[i + 3]
  }

  /** `set4(buf, 0, n)`: the four bytes of `n` as a DWORD, most significant
      first.  The DWORD truncation is explicit: only `n % 2^32` is kept. */
  function Be32(n: nat): (r: seq<byte>)
    ensures |r| == 4
  {
    var m := n % Two32;
    [m / 0x100_0000, (m / 0x1_0000) % 256, (m / 0x100) % 256, m % 256]
  }

  /** Reading back what `Be32` wrote gives the DWORD value of `n`. */
  lemma ReadBe32Be32(n: nat)
    ensures ReadBe32(Be32(n), 0) == n % Two32
    ensures n < Two32 ==> ReadBe32(Be32(n), 0) == n
  {
    var m := n % Two32;
    var q1 := m / 256;
    var q2 := q1 / 256;
    var q3 := q2 / 256;
    assert m == q1 * 256 + m % 256;
    assert q1 == q2 * 256 + q1 % 256;
    assert q2 == q3 * 256 + q2 % 256;
    assert m / 0x1_0000 == q2;
    assert m / 0x100_0000 == q3;
  }

  /** Writing back what was read gives the same four bytes. */
  lemma Be32OfRead(s: seq<byte>)
    requires |s| == 4
    ensures Be32(ReadBe32(s, 0)) == s
  {
    var s0, s1, s2, s3 := s[0] as int, s[1] as int, s[2] as int, s[3] as int;
    var a := s0 * 256 + s1;
    var b := a * 256 + s2;
    var n := b * 256 + s3;
    assert n == ReadBe32(s, 0);
    assert n % Two32 == n;
    assert n / 256 == b && n % 256 == s3 by { DivideExactly(b, s3, 256); }
    assert (n / 256) % 256 == s2 by { DivideExactly(a, s2, 256); }
    assert n / 0x1_0000 == a by { DivideExactly(a, s2 * 256 + s3, 0x1_0000); }
    assert a % 256 == s1 by { DivideExactly(s0, s1, 256); }
    assert n / 0x100_0000 == s0 by { DivideExactly(s0, (s1 * 256 + s2) * 256 + s3, 0x100_0000); }
    var r := Be32(n);
    assert r[0] == s[0] && r[1] == s[1] && r[2] == s[2] && r[3] == s[3];
  }

  /** `hi * k + lo` divided by `k` when `lo` is below `k`. */
  lemma DivideExactly(hi: nat, lo: nat, k: nat)
    requires 0 <= lo < k
    ensures (hi * k + lo) / k == hi && (hi * k + lo) % k == lo
  {
    var x := hi * k + lo;
    var q, r := x / k, x % k;
    assert x == q * k + r;
    var d: int := hi - q;
    assert d * k == r - lo;
    MultipleBound(d, k);
  }

  /** A non-zero multiple of `k` is at least `k` away from zero. */
  lemma MultipleBound(d: int, k: int)
    requires k >= 0
    ensures d >= 1 ==> d * k >= k
    ensures d <= -1 ==> d * k <= -k
  {
    if d >= 1 {
      assert d * k == k + (d - 1) * k;
    } else if d <= -1 {
      assert d * k == -k + (d + 1) * k;
    }
  }

  /** Two lengths below 2^32 have the same prefix only when they are equal. */
  lemma Be32Injective(m: nat, n: nat)
    requires m < Two32 && n < Two32
    requires Be32(m) == Be32(n)
    ensures m == n
  {
    ReadBe32Be32(m);
    ReadBe32Be32(n);
  }

  /** `b & 0x1f`: the five low bits, which the source takes as the unit type. */
  function Low5(b: byte): (r: byte)
  {
    b % 32
  }

  /** `b & 0xe0`: the three high bits, kept in place. */
  function High3(b: byte): (r: byte)
  {
    b - b % 32
  }

  /** `(a & 0xe0) | (c & 0x1f)`: the high bits of `a` over the low bits of `c`. */
  function Splice(a: byte, c: byte): (r: byte)
  {
    High3(a) + Low5(c)
  }

  /** The spliced byte carries the type bits of `c` under the high bits of `a`. */
  lemma SpliceFields(a: byte, c: byte)
    ensures Low5(Splice(a, c)) == Low5(c)
    ensures High3(Splice(a, c)) == High3(a)
  {
  }

  /** `(b & 0x80) == 0x80`: the S (start) bit of a fragmentation-unit header. */
  predicate StartBit(b: byte)
  {
    b >= 128
  }

  /** `(b & 0x40) == 0x40`: the E (end) bit of a fragmentation-unit header. */
  predicate EndBit(b: byte)
  {
    (b / 64) % 2 == 1
  }

  /** `x & 0x1f` is `Low5`. */
  lemma Low5Bitwise(x: bv8)
    ensures (x & 0x1f) as int == Low5(x as int)
  {
    assert (x & 0x1f) as int == x as int % 32;
  }

  /** `x & 0xe0` is `High3`. */
  lemma High3Bitwise(x: bv8)
    ensures (x & 0xe0) as int == High3(x as int)
  {
    assert (x & 0xe0) as int == x as int - x as int % 32;
  }

  lemma DisjointOrIsSum(x: bv8, y: bv8)
    ensures ((x & 0xe0) | (y & 0x1f)) as int == (x & 0xe0) as int + (y & 0x1f) as int
  {
  }

  /** `(x & 0xe0) | (y & 0x1f)` is `Splice`. */
  lemma SpliceBitwise(x: bv8, y: bv8)
    ensures ((x & 0xe0) | (y & 0x1f)) as int == Splice(x as int, y as int)
  {
    var hi, lo := x & 0xe0, y & 0x1f;
    assert (hi | lo) as int == hi as int + lo as int by { DisjointOrIsSum(x, y); }
    assert hi as int == High3(x as int) by { High3Bitwise(x); }
    assert lo as int == Low5(y as int) by { Low5Bitwise(y); }
  }

  /** The two flag tests of the fragmentation-unit header are `StartBit` and `EndBit`. */
  lemma FlagBitsBitwise(x: bv8)
    ensures ((x & 0x80) == 0x80) == StartBit(x as int)
    ensures ((x & 0x40) == 0x40) == EndBit(x as int)
  {
  }
}

=== FILE: depacketizer_properties.dfy ===
/** What `AddPayload` and `AddPacket` guarantee, branch by branch and over
    runs of calls. */
module DepacketizerProperties {
  import opened Bytes
  import opened Wrappers
  import opened MediaFrame
  import opened UnitStream
  import opened Aggregation
  import opened H265Depacketizer
  import opened SeqFacts

  // ---------------------------------------------------------------------
  // The type field as read by the code

  /** The unit type as section 1.1.4 of RFC 7798 places it: bits 1-6 of the
      first header byte. */
  function Rfc7798Type(b: byte): (r: nat)
  {
    (b / 2) % 64
  }

  /** Read through `& 0x1f`, the type is below 32: the AUD/EOS/EOB/FD branch
      (35-38) is never taken, and of the intra types only 19 and 20 can
      match. */
  lemma TypeFieldBelow32(b: byte)
    ensures Low5(b) < 32
    ensures !IsUndefinedType(Low5(b))
    ensures IsIntraType(Low5(b)) <==> Low5(b) == 19 || Low5(b) == 20
  {
  }

  /** A header byte carrying one of RFC 7798's IDR (19, 20) or parameter-set
      (32-34) types never reads as an intra type through the 5-bit mask. */
  lemma Rfc7798IntraTypesNotDetected(b: byte)
    requires Rfc7798Type(b) in {19, 20, 32, 33, 34}
    ensures !IsIntraType(Low5(b))
  {
  }

  /** A header byte carrying RFC 7798's aggregation (48) or fragmentation
      (49) type reads as neither 24 nor 29, so such payloads take the
      single-unit branch. */
  lemma Rfc7798PacketTypesTakenAsSingle(b: byte)
    requires Rfc7798Type(b) in {48, 49}
    ensures Low5(b) != AggregationType && Low5(b) != FragmentationType
  {
  }

  // ---------------------------------------------------------------------
  // Shapes of payloads

  predicate IsSingleNal(p: seq<byte>)
  {
    |p| >= 2 && Low5(p[0]) != AggregationType && Low5(p[0]) != FragmentationType
  }

  predicate IsFragment(p: seq<byte>)
  {
    |p| >= 3 && Low5(p[0]) == FragmentationType
  }

  predicate IsStartFragment(p: seq<byte>)
  {
    IsFragment(p) && StartBit(p[2]) && !EndBit(p[2])
  }

  predicate IsMiddleFragment(p: seq<byte>)
  {
    IsFragment(p) && !StartBit(p[2]) && !EndBit(p[2])
  }

  predicate IsEndFragment(p: seq<byte>)
  {
    IsFragment(p) && !StartBit(p[2]) && EndBit(p[2])
  }

  /** Whether a payload raises the intra flag, stated per payload shape. */
  predicate RaisesIntra(p: seq<byte>)
  {
    |p| >= 2 &&
    if Low5(p[0]) == AggregationType then HasIntraNal(SubUnits(p[2..]))
    else if Low5(p[0]) == FragmentationType then
      |p| >= 3 && StartBit(p[2]) && Low5(p[2]) == FragmentIntraType
    else IsIntraType(Low5(p[0]))
  }

  // ---------------------------------------------------------------------
  // One call to AddPayload

  /** Single-unit branch: the 4-byte length, then the whole payload
      unchanged, and one record for the payload with no stripped header. */
  lemma SingleNalAppended(d: Depacketizer, p: seq<byte>)
    requires IsSingleNal(p)
    ensures AddPayload(d, p).next.frame.buffer == d.frame.buffer + Be32(|p|) + p
    ensures AddPayload(d, p).next.frame.packets
         == d.frame.packets + [RtpPacketInfo(|d.frame.buffer| + 4, |p|, [])]
    ensures AddPayload(d, p).next.startedFrag == d.startedFrag
    ensures AddPayload(d, p).next.iniFragNALU == d.iniFragNALU
    ensures AddPayload(d, p).out.Some?
    ensures |p| < Two32 ==> Unframe(AddPayload(d, p).next.frame.buffer[|d.frame.buffer|..]) == Some([p])
  {
    TypeFieldBelow32(p[0]);
    var b := AddPayload(d, p).next.frame.buffer;
    assert b[|d.frame.buffer|..] == Be32(|p|) + p;
    if |p| < Two32 {
      UnframeOne(p);
    }
  }

  /** Aggregation branch: the accepted sub-units, each with its 4-byte
      length and its own record, in payload order; stripping the prefixes
      gives back exactly those sub-units. */
  lemma AggregationAppended(d: Depacketizer, p: seq<byte>)
    requires |p| >= 2 && Low5(p[0]) == AggregationType
    ensures AddPayload(d, p).next.frame.buffer == d.frame.buffer + Framed(SubUnits(p[2..]))
    ensures AddPayload(d, p).next.frame.packets
         == d.frame.packets + NalRecords(|d.frame.buffer|, SubUnits(p[2..]))
    ensures Unframe(AddPayload(d, p).next.frame.buffer[|d.frame.buffer|..]) == Some(SubUnits(p[2..]))
    ensures AddPayload(d, p).next.startedFrag == d.startedFrag
    ensures AddPayload(d, p).next.iniFragNALU == d.iniFragNALU
    ensures AddPayload(d, p).out.Some?
  {
    var units := SubUnits(p[2..]);
    AggregationLoopIsAppendNals(d.frame, p[2..]);
    AppendNalsBuffer(d.frame, units);
    AppendNalsRecords(d.frame, units);
    FramedSuffixReads(d.frame.buffer, AddPayload(d, p).next.frame.buffer, units);
  }

  /** Carriable units written after `prefix` read back from where `prefix` ends. */
  lemma FramedSuffixReads(prefix: seq<byte>, b: seq<byte>, units: seq<seq<byte>>)
    requires AllCarriable(units)
    requires b == prefix + Framed(units)
    ensures Unframe(b[|prefix|..]) == Some(units)
  {
    assert b[|prefix|..] == Framed(units);
    assert Fits(units) by {
      forall i | 0 <= i < |units| ensures |units[i]| < Two32 {
        assert Carriable(units[i]);
      }
    }
    UnframeFramed(units);
  }

  /** Record `k` of `f` names a region of the buffer holding exactly `u`,
      with no stripped prefix. */
  predicate RecordHolds(f: Frame, k: nat, u: seq<byte>)
    requires k < |f.packets|
  {
    var r := f.packets[k];
    r.pos + r.size <= |f.buffer| && f.buffer[r.pos..r.pos + r.size] == u && r.prefix == []
  }

  /** Every record the aggregation branch adds names exactly its sub-unit's
      bytes in the new buffer. */
  lemma AggregationRecordsLocateUnits(d: Depacketizer, p: seq<byte>, i: nat)
    requires |p| >= 2 && Low5(p[0]) == AggregationType
    requires i < |SubUnits(p[2..])|
    ensures |AddPayload(d, p).next.frame.packets| == |d.frame.packets| + |SubUnits(p[2..])|
    ensures RecordHolds(AddPayload(d, p).next.frame, |d.frame.packets| + i, SubUnits(p[2..])[i])
  {
    AggregationAppended(d, p);
    AppendedRecordLocates(d.frame.packets, d.frame.buffer, SubUnits(p[2..]), AddPayload(d, p).next.frame, i);
  }

  /** The `i`-th of the records `NalRecords` appended names the `i`-th unit
      of the framed units appended. */
  lemma AppendedRecordLocates(recs0: seq<RtpPacketInfo>, buf0: seq<byte>, units: seq<seq<byte>>,
                              f: Frame, i: nat)
    requires f.packets == recs0 + NalRecords(|buf0|, units)
    requires f.buffer == buf0 + Framed(units)
    requires i < |units|
    ensures |f.packets| == |recs0| + |units|
    ensures RecordHolds(f, |recs0| + i, units[i])
  {
    var r := NalRecords(|buf0|, units)[i];
    NalRecordsLocate(buf0, units, i);
    IndexAfter(recs0, NalRecords(|buf0|, units), i);
    assert f.packets[|recs0| + i] == r;
    assert f.buffer[r.pos..r.pos + r.size] == units[i];
  }

  /** The `i`-th record of `NalRecords` names the `i`-th unit in the framed buffer. */
  lemma {:induction false} NalRecordsLocate(prefix: seq<byte>, nals: seq<seq<byte>>, i: nat)
    requires i < |nals|
    ensures var r := NalRecords(|prefix|, nals)[i];
      var buf := prefix + Framed(nals);
      r.pos + r.size <= |buf| && buf[r.pos..r.pos + r.size] == nals[i] && r.prefix == []
    decreases i
  {
    var buf := prefix + Framed(nals);
    var n0 := nals[0];
    var prefix' := prefix + Be32(|n0|) + n0;
    assert buf == prefix' + Framed(nals[1..]);
    if i == 0 {
      assert buf[|prefix| + 4..|prefix| + 4 + |n0|] == n0;
    } else {
      NalRecordsLocate(prefix', nals[1..], i - 1);
      assert NalRecords(|prefix|, nals)[i] == NalRecords(|prefix'|, nals[1..])[i - 1];
    }
  }

  /** Aggregation resilience: sub-units followed by a zero length, a length
      past the end, or a short tail are all kept, and nothing after them is. */
  lemma AggregationKeepsEarlierUnits(d: Depacketizer, header: seq<byte>, units: seq<seq<byte>>, tail: seq<byte>)
    requires |header| == 2 && Low5(header[0]) == AggregationType
    requires AllCarriable(units)
    requires Stops(tail)
    ensures AddPayload(d, header + Aggregate(units) + tail).next.frame.buffer
         == d.frame.buffer + Framed(units)
    ensures d.frame.buffer <= AddPayload(d, header + Aggregate(units) + tail).next.frame.buffer
  {
    var p := header + Aggregate(units) + tail;
    assert p[2..] == Aggregate(units) + tail;
    SubUnitsAggregate(units, tail);
    AggregationAppended(d, p);
  }

  /** A fragment with the S bit clear while no fragmented unit is pending is
      dropped: nothing appended, no record, `NULL` returned. */
  lemma OrphanFragmentIgnored(d: Depacketizer, p: seq<byte>)
    requires IsFragment(p) && !StartBit(p[2])
    requires !d.startedFrag
    ensures AddPayload(d, p) == Step(d, None)
  {
    TypeFieldBelow32(p[0]);
  }

  /** Start fragment: the length prefix is reserved as four zero bytes at the
      old end of the buffer, followed by the synthetic header byte and the
      fragment's body, with one record carrying the three stripped bytes. */
  lemma StartFragmentAppended(d: Depacketizer, p: seq<byte>)
    requires IsStartFragment(p)
    ensures var n := AddPayload(d, p).next;
      n.startedFrag && n.iniFragNALU == |d.frame.buffer|
      && n.frame.buffer == d.frame.buffer + [0, 0, 0, 0, Splice(p[0], p[2])] + p[3..]
      && n.frame.packets
         == d.frame.packets + [RtpPacketInfo(|d.frame.buffer| + 5, |p| - 3, p[..3])]
    ensures AddPayload(d, p).out.Some?
  {
    TypeFieldBelow32(p[0]);
  }

  /** Middle fragment of a pending unit: its body and one record are appended. */
  lemma MiddleFragmentAppended(d: Depacketizer, p: seq<byte>)
    requires IsMiddleFragment(p) && d.startedFrag
    ensures AddPayload(d, p).next.frame.buffer == d.frame.buffer + p[3..]
    ensures AddPayload(d, p).next.frame.packets
         == d.frame.packets + [RtpPacketInfo(|d.frame.buffer|, |p| - 3, p[..3])]
    ensures AddPayload(d, p).next.startedFrag
    ensures AddPayload(d, p).next.iniFragNALU == d.iniFragNALU
    ensures AddPayload(d, p).out.Some?
  {
    TypeFieldBelow32(p[0]);
  }

  /** End fragment of a pending unit: the body is appended, the four
      reserved bytes now hold the unit's length (everything after them), no
      other byte changes, and the fragment state is cleared. */
  lemma EndFragmentPatches(d: Depacketizer, p: seq<byte>)
    requires Valid(d)
    requires IsEndFragment(p) && d.startedFrag
    ensures var n := AddPayload(d, p).next;
      var appended := d.frame.buffer + p[3..];
      |n.frame.buffer| == |appended|
      && ReadBe32(n.frame.buffer, d.iniFragNALU) == (|appended| - d.iniFragNALU - 4) % Two32
      && (forall i :: 0 <= i < |appended| && !(d.iniFragNALU <= i < d.iniFragNALU + 4) ==>
            n.frame.buffer[i] == appended[i])
      && !n.startedFrag && n.iniFragNALU == 0
    ensures AddPayload(d, p).out.Some?
    ensures AddPayload(d, p).next.frame.packets
         == d.frame.packets + [RtpPacketInfo(|d.frame.buffer|, |p| - 3, p[..3])]
  {
    TypeFieldBelow32(p[0]);
    assert AddPayload(d, p).next.frame.packets
        == d.frame.packets + [RtpPacketInfo(|d.frame.buffer|, |p| - 3, p[..3])] by {
      EndFragmentRecord(d, p);
    }
  }

  /** An end fragment of a pending unit adds the record of its body, with
      its three header bytes, whether or not the length can be patched. */
  lemma EndFragmentRecord(d: Depacketizer, p: seq<byte>)
    requires IsEndFragment(p) && d.startedFrag
    ensures AddPayload(d, p).next.frame.packets
         == d.frame.packets + [RtpPacketInfo(|d.frame.buffer|, |Body(p)|, p[..3])]
  {
    TypeFieldBelow32(p[0]);
  }

  // ---------------------------------------------------------------------
  // Invariant, NULL returns and append-only growth

  /** With the invariant in place, `AddPayload` returns `NULL` exactly for a
      payload shorter than two bytes, a fragment shorter than three bytes,
      and a fragment with no start seen: the error return of line 252 is
      unreachable. */
  lemma NullReturns(d: Depacketizer, p: seq<byte>)
    requires Valid(d)
    ensures AddPayload(d, p).out.None?
        <==> |p| < 2 || (Low5(p[0]) == FragmentationType && (|p| < 3 || (!d.startedFrag && !StartBit(p[2]))))
  {
    if |p| >= 2 {
      TypeFieldBelow32(p[0]);
    }
  }

  /** Append-only growth: the buffer never shrinks, old records stay, and the
      only old bytes that may change are the four reserved for a pending
      fragmented unit's length.  Without a pending unit, the old buffer is a
      prefix of the new. */
  lemma AppendOnly(d: Depacketizer, p: seq<byte>)
    requires Valid(d)
    ensures var f := AddPayload(d, p).next.frame;
      |d.frame.buffer| <= |f.buffer|
      && d.frame.packets <= f.packets
      && (forall i :: 0 <= i < |d.frame.buffer| && !(d.startedFrag && d.iniFragNALU <= i < d.iniFragNALU + 4) ==>
            f.buffer[i] == d.frame.buffer[i])
    ensures !d.startedFrag ==> d.frame.buffer <= AddPayload(d, p).next.frame.buffer
  {
    var f := AddPayload(d, p).next.frame;
    if |p| >= 2 {
      TypeFieldBelow32(p[0]);
      var t := Low5(p[0]);
      if t == AggregationType {
        AggregationAppended(d, p);
        assert f.packets[..|d.frame.packets|] == d.frame.packets;
      } else if t == FragmentationType && |p| >= 3 {
        AppendOnlyFragment(d, p);
      } else if t != FragmentationType {
        SingleNalAppended(d, p);
      }
    }
  }

  lemma AppendOnlyFragment(d: Depacketizer, p: seq<byte>)
    requires Valid(d) && IsFragment(p)
    ensures var f := AddPayload(d, p).next.frame;
      |d.frame.buffer| <= |f.buffer|
      && d.frame.packets <= f.packets
      && (forall i :: 0 <= i < |d.frame.buffer| && !(d.startedFrag && d.iniFragNALU <= i < d.iniFragNALU + 4) ==>
            f.buffer[i] == d.frame.buffer[i])
    ensures !d.startedFrag ==> d.frame.buffer <= AddPayload(d, p).next.frame.buffer
  {
    TypeFieldBelow32(p[0]);
    var f := AddPayload(d, p).next.frame;
    var d1 := if StartBit(p[2]) then StartFragment(d, p) else d;
    if d1.startedFrag {
      var appended := d1.frame.buffer + p[3..];
      assert d.frame.buffer <= appended;
      assert |f.buffer| == |appended|;
      assert d.frame.packets <= d1.frame.packets + [RtpPacketInfo(|d1.frame.buffer|, |p| - 3, p[..3])];
      if EndBit(p[2]) {
        assert d1.iniFragNALU + 4 <= |appended|;
        if StartBit(p[2]) {
          assert d1.iniFragNALU == |d.frame.buffer|;
          assert f.buffer[..d1.iniFragNALU] == appended[..d1.iniFragNALU];
        }
      } else {
        assert f.buffer == appended;
      }
    }
  }

  // ---------------------------------------------------------------------
  // Intra flag

  /** `AddPayload` raises the intra flag exactly for an intra single unit,
      an aggregation holding an intra sub-unit, or a start fragment of type
      5, and never clears it. */
  lemma IntraFlag(d: Depacketizer, p: seq<byte>)
    ensures AddPayload(d, p).next.frame.intra == (d.frame.intra || RaisesIntra(p))
  {
    if |p| >= 2 {
      TypeFieldBelow32(p[0]);
      if Low5(p[0]) == AggregationType {
        AggregationLoopIsAppendNals(d.frame, p[2..]);
        AppendNalsIntra(d.frame, SubUnits(p[2..]));
      }
    }
  }

  /** A fragment whose FU header carries one of RFC 7798's IDR types (19,
      20) in its 6-bit type field (section 4.4.3) leaves the intra flag as
      it was: the start-fragment test compares the type with 5. */
  lemma FragmentedIdrNotDetected(d: Depacketizer, p: seq<byte>)
    requires IsFragment(p) && p[2] % 64 in {19, 20}
    ensures AddPayload(d, p).next.frame.intra == d.frame.intra
  {
    IntraFlag(d, p);
  }

  // ---------------------------------------------------------------------
  // Runs of payloads: fragment reassembly

  /** `AddPayload` over the payloads in order. */
  function Feed(d: Depacketizer, ps: seq<seq<byte>>): (r: Depacketizer)
    decreases |ps|
  {
    if ps == [] then d else Feed(AddPayload(d, ps[0]).next, ps[1..])
  }

  /** The invariant holds after any run of payloads from a state that has
      it, so the error return of line 252 is never taken; the intra flag,
      once raised, stays raised. */
  lemma {:induction false} FeedKeepsValid(d: Depacketizer, ps: seq<seq<byte>>)
    requires Valid(d)
    ensures Valid(Feed(d, ps))
    ensures d.frame.intra ==> Feed(d, ps).frame.intra
    decreases |ps|
  {
    if ps != [] {
      AddPayloadKeeps(d, ps[0]);
      FeedKeepsValid(AddPayload(d, ps[0]).next, ps[1..]);
    }
  }

  /** A fragment's body: what follows its three header bytes. */
  function Body(p: seq<byte>): (r: seq<byte>)
  {
    if |p| >= 3 then p[3..] else []
  }

  /** The unit header a start fragment reconstructs: the high bits of its
      payload header's first byte over the type in its FU header. */
  function FragmentHeader(p: seq<byte>): (r: byte)
  {
    if |p| >= 3 then Splice(p[0], p[2]) else 0
  }

  /** The fragment bodies, in order. */
  function Bodies(ps: seq<seq<byte>>): (r: seq<byte>)
    decreases |ps|
  {
    if ps == [] then [] else Body(ps[0]) + Bodies(ps[1..])
  }

  /** The three header bytes a fragment's record keeps. */
  function Stripped(p: seq<byte>): (r: seq<byte>)
  {
    if |p| >= 3 then p[..3] else p
  }

  /** The records the fragments of `ps` add when the buffer ends at `start`:
      each body, with the three header bytes it was stripped of. */
  function FragmentRecords(start: nat, ps: seq<seq<byte>>): (r: seq<RtpPacketInfo>)
    decreases |ps|
  {
    if ps == [] then []
    else [RtpPacketInfo(start, |Body(ps[0])|, Stripped(ps[0]))] + FragmentRecords(start + |Body(ps[0])|, ps[1..])
  }

  /** Middle fragments of a pending unit append their bodies and one record
      each, and leave the unit pending at the same offset. */
  lemma {:induction false} MiddleFragmentsAppended(d: Depacketizer, ms: seq<seq<byte>>)
    requires d.startedFrag
    requires forall i :: 0 <= i < |ms| ==> IsMiddleFragment(ms[i])
    ensures Feed(d, ms).frame.buffer == d.frame.buffer + Bodies(ms)
    ensures Feed(d, ms).frame.packets == d.frame.packets + FragmentRecords(|d.frame.buffer|, ms)
    ensures Feed(d, ms).startedFrag && Feed(d, ms).iniFragNALU == d.iniFragNALU
    decreases |ms|
  {
    if ms != [] {
      var d1 := MiddleStep(d, ms);
      MiddleFragmentsAppended(d1, ms[1..]);
      var f := Feed(d1, ms[1..]).frame;
      BodiesStep(d.frame.buffer, d1.frame.buffer, f.buffer, ms);
      RecordsStep(d.frame.packets, d.frame.buffer, d1.frame.packets, d1.frame.buffer, f.packets, ms);
    }
  }

  /** The middle fragment at the head of a run. */
  lemma MiddleStep(d: Depacketizer, ms: seq<seq<byte>>) returns (d1: Depacketizer)
    requires ms != [] && IsMiddleFragment(ms[0]) && d.startedFrag
    ensures Feed(d, ms) == Feed(d1, ms[1..])
    ensures d1.frame.buffer == d.frame.buffer + Body(ms[0])
    ensures d1.frame.packets == d.frame.packets + [RtpPacketInfo(|d.frame.buffer|, |Body(ms[0])|, ms[0][..3])]
    ensures d1.startedFrag && d1.iniFragNALU == d.iniFragNALU
  {
    MiddleFragmentAppended(d, ms[0]);
    d1 := AddPayload(d, ms[0]).next;
  }

  lemma BodiesStep(buf0: seq<byte>, buf1: seq<byte>, out: seq<byte>, ms: seq<seq<byte>>)
    requires ms != []
    requires buf1 == buf0 + Body(ms[0])
    requires out == buf1 + Bodies(ms[1..])
    ensures out == buf0 + Bodies(ms)
  {
    assert Bodies(ms) == Body(ms[0]) + Bodies(ms[1..]);
  }

  lemma RecordsStep(recs0: seq<RtpPacketInfo>, buf0: seq<byte>, recs1: seq<RtpPacketInfo>, buf1: seq<byte>,
                    out: seq<RtpPacketInfo>, ms: seq<seq<byte>>)
    requires ms != [] && |ms[0]| >= 3
    requires buf1 == buf0 + Body(ms[0])
    requires recs1 == recs0 + [RtpPacketInfo(|buf0|, |Body(ms[0])|, ms[0][..3])]
    requires out == recs1 + FragmentRecords(|buf1|, ms[1..])
    ensures out == recs0 + FragmentRecords(|buf0|, ms)
  {
    var r := RtpPacketInfo(|buf0|, |Body(ms[0])|, Stripped(ms[0]));
    var rest := FragmentRecords(|buf1|, ms[1..]);
    FragmentRecordsCons(|buf0|, ms, |buf1|);
    assert Stripped(ms[0]) == ms[0][..3];
    AppendAssoc(recs0, [r], rest);
  }

  lemma FragmentRecordsCons(start: nat, ms: seq<seq<byte>>, next: nat)
    requires ms != []
    requires next == start + |Body(ms[0])|
    ensures FragmentRecords(start, ms)
         == [RtpPacketInfo(start, |Body(ms[0])|, Stripped(ms[0]))] + FragmentRecords(next, ms[1..])
  {
  }

  lemma {:induction false} FeedAppend(d: Depacketizer, a: seq<seq<byte>>, b: seq<seq<byte>>)
    ensures Feed(d, a + b) == Feed(Feed(d, a), b)
    decreases |a|
  {
    if a != [] {
      assert (a + b)[1..] == a[1..] + b;
      FeedAppend(AddPayload(d, a[0]).next, a[1..], b);
    } else {
      assert a + b == b;
    }
  }

  /** Fragment reassembly: a start fragment, any number of middle fragments
      and an end fragment leave, after the old buffer, one unit: its 4-byte
      length (1 + the total of the bodies), the synthetic header byte, and
      the bodies in order.  The fragment state is cleared, and each fragment
      adds the record of its body, the first one after the length and the
      header byte. */
  lemma FragmentedUnitReassembled(d: Depacketizer, start: seq<byte>, ms: seq<seq<byte>>, end: seq<byte>)
    requires IsStartFragment(start) && IsEndFragment(end)
    requires forall i :: 0 <= i < |ms| ==> IsMiddleFragment(ms[i])
    ensures var all := [start] + ms + [end];
      Closed(Feed(d, all), d.frame.buffer, [FragmentHeader(start)] + Bodies(all))
    ensures var all := [start] + ms + [end];
      Feed(d, all).frame.packets == d.frame.packets + FragmentRecords(|d.frame.buffer| + 5, all)
    ensures var all := [start] + ms + [end];
      1 + |Bodies(all)| < Two32 ==>
        Unframe(Feed(d, all).frame.buffer[|d.frame.buffer|..]) == Some([[FragmentHeader(start)] + Bodies(all)])
  {
    var d3 := Reassemble(d, start, ms, end);
    BodiesOfRun(start, ms, end);
    PrefixedUnitAfter(d.frame.buffer, [FragmentHeader(start)] + Bodies([start] + ms + [end]));
  }

  /** A depacketizer with no fragment pending whose buffer holds `unit`,
      with its 4-byte length, right after `prefix`. */
  predicate Closed(d: Depacketizer, prefix: seq<byte>, unit: seq<byte>)
  {
    !d.startedFrag && d.iniFragNALU == 0 && d.frame.buffer == prefix + Be32(|unit|) + unit
  }

  /** The three steps of a fragmented unit, composed. */
  lemma Reassemble(d: Depacketizer, start: seq<byte>, ms: seq<seq<byte>>, end: seq<byte>) returns (d3: Depacketizer)
    requires IsStartFragment(start) && IsEndFragment(end)
    requires forall i :: 0 <= i < |ms| ==> IsMiddleFragment(ms[i])
    ensures Feed(d, [start] + ms + [end]) == d3
    ensures Closed(d3, d.frame.buffer, [FragmentHeader(start)] + (Body(start) + Bodies(ms) + Body(end)))
    ensures d3.frame.packets == d.frame.packets + FragmentRecords(|d.frame.buffer| + 5, [start] + ms + [end])
  {
    var d2 := OpenFragment(d, start, ms, end);
    d3 := CloseFragment(d2, end, d.frame.buffer, FragmentHeader(start), Body(start) + Bodies(ms));
    RunRecords(d.frame.packets, d2.frame.packets, d3.frame.packets, |d.frame.buffer| + 5,
               start, ms, end, |d2.frame.buffer|);
  }

  /** The records of a whole run: those of the start and middle fragments,
      then the end fragment's, placed after all the bodies before it. */
  lemma RunRecords(recs0: seq<RtpPacketInfo>, recs2: seq<RtpPacketInfo>, recs3: seq<RtpPacketInfo>, at: nat,
                   start: seq<byte>, ms: seq<seq<byte>>, end: seq<byte>, pos: nat)
    requires |end| >= 3
    requires recs2 == recs0 + FragmentRecords(at, [start] + ms)
    requires pos == at + |Body(start) + Bodies(ms)|
    requires recs3 == recs2 + [RtpPacketInfo(pos, |Body(end)|, end[..3])]
    ensures recs3 == recs0 + FragmentRecords(at, [start] + ms + [end])
  {
    var firsts := [start] + ms;
    assert firsts[0] == start && firsts[1..] == ms;
    assert Bodies(firsts) == Body(start) + Bodies(ms);
    FragmentRecordsAppend(at, firsts, [end]);
    FragmentRecordsCons(pos, [end], pos + |Body(end)|);
    assert [end][1..] == [];
    assert Stripped(end) == end[..3];
    AppendAssoc(recs0, FragmentRecords(at, firsts), FragmentRecords(pos, [end]));
  }

  /** The records of two runs of fragments, one after the other. */
  lemma {:induction false} FragmentRecordsAppend(at: nat, a: seq<seq<byte>>, b: seq<seq<byte>>)
    ensures FragmentRecords(at, a + b) == FragmentRecords(at, a) + FragmentRecords(at + |Bodies(a)|, b)
    decreases |a|
  {
    if a != [] {
      var next := at + |Body(a[0])|;
      assert (a + b)[0] == a[0] && (a + b)[1..] == a[1..] + b;
      FragmentRecordsAppend(next, a[1..], b);
      assert Bodies(a) == Body(a[0]) + Bodies(a[1..]);
      FragmentRecordsCons(at, a + b, next);
      FragmentRecordsCons(at, a, next);
      AppendAssoc([RtpPacketInfo(at, |Body(a[0])|, Stripped(a[0]))], FragmentRecords(next, a[1..]),
                  FragmentRecords(at + |Bodies(a)|, b));
    } else {
      assert a + b == b;
    }
  }

  /** A length-prefixed unit appended after `before` reads back as that unit. */
  lemma PrefixedUnitAfter(before: seq<byte>, unit: seq<byte>)
    ensures (before + Be32(|unit|) + unit)[|before|..] == Be32(|unit|) + unit
    ensures |unit| < Two32 ==> Unframe((before + Be32(|unit|) + unit)[|before|..]) == Some([unit])
  {
    AppendAssoc(before, Be32(|unit|), unit);
    DropPrefix(before, Be32(|unit|) + unit);
    if |unit| < Two32 {
      UnframeOne(unit);
    }
  }

  /** The bodies of a whole fragmented unit, split at its ends. */
  lemma BodiesOfRun(start: seq<byte>, ms: seq<seq<byte>>, end: seq<byte>)
    ensures Bodies([start] + ms + [end]) == Body(start) + Bodies(ms) + Body(end)
  {
    BodiesAppend([start] + ms, [end]);
    BodiesAppend([start], ms);
    assert Bodies([end]) == Body(end) + Bodies([]);
    assert Bodies([start]) == Body(start) + Bodies([]);
  }

  /** The buffer of a depacketizer with a fragmented unit pending right
      after `prefix`: the reserved length, the header byte, the bodies so far. */
  predicate Pending(d: Depacketizer, prefix: seq<byte>, hdr: byte, content: seq<byte>)
  {
    d.startedFrag && d.iniFragNALU == |prefix| && d.frame.buffer == prefix + [0, 0, 0, 0] + [hdr] + content
  }

  /** A start fragment followed by middle fragments: the state the end
      fragment finds. */
  lemma OpenFragment(d: Depacketizer, start: seq<byte>, ms: seq<seq<byte>>, end: seq<byte>) returns (d2: Depacketizer)
    requires IsStartFragment(start)
    requires forall i :: 0 <= i < |ms| ==> IsMiddleFragment(ms[i])
    ensures Feed(d, [start] + ms + [end]) == Feed(d2, [end])
    ensures Pending(d2, d.frame.buffer, FragmentHeader(start), Body(start) + Bodies(ms))
    ensures d2.frame.packets == d.frame.packets + FragmentRecords(|d.frame.buffer| + 5, [start] + ms)
  {
    var all := [start] + ms + [end];
    assert all[0] == start && all[1..] == ms + [end];
    var d1 := StartStep(d, all);
    MiddleFragmentsAppended(d1, ms);
    FeedAppend(d1, ms, [end]);
    d2 := Feed(d1, ms);
    AppendAssoc(d.frame.buffer + [0, 0, 0, 0] + [FragmentHeader(start)], Body(start), Bodies(ms));
    OpenRecords(d.frame.packets, d.frame.buffer, FragmentHeader(start), d1.frame.packets, d1.frame.buffer,
                d2.frame.packets, start, ms);
  }

  /** The records of a start fragment and the middle fragments after it. */
  lemma OpenRecords(recs0: seq<RtpPacketInfo>, buf0: seq<byte>, hdr: byte, recs1: seq<RtpPacketInfo>,
                    buf1: seq<byte>, recs2: seq<RtpPacketInfo>, start: seq<byte>, ms: seq<seq<byte>>)
    requires |start| >= 3
    requires buf1 == buf0 + [0, 0, 0, 0] + [hdr] + Body(start)
    requires recs1 == recs0 + [RtpPacketInfo(|buf0| + 5, |Body(start)|, start[..3])]
    requires recs2 == recs1 + FragmentRecords(|buf1|, ms)
    ensures recs2 == recs0 + FragmentRecords(|buf0| + 5, [start] + ms)
  {
    var firsts := [start] + ms;
    assert firsts[0] == start && firsts[1..] == ms;
    RecordsStep(recs0, buf0 + [0, 0, 0, 0] + [hdr], recs1, buf1, recs2, firsts);
  }

  /** The start fragment at the head of a run. */
  lemma StartStep(d: Depacketizer, ps: seq<seq<byte>>) returns (d1: Depacketizer)
    requires ps != [] && IsStartFragment(ps[0])
    ensures Feed(d, ps) == Feed(d1, ps[1..])
    ensures d1.frame.buffer == d.frame.buffer + [0, 0, 0, 0] + [FragmentHeader(ps[0])] + Body(ps[0])
    ensures d1.frame.packets == d.frame.packets + [RtpPacketInfo(|d.frame.buffer| + 5, |Body(ps[0])|, ps[0][..3])]
    ensures d1.startedFrag && d1.iniFragNALU == |d.frame.buffer|
  {
    StartFragmentAppended(d, ps[0]);
    d1 := AddPayload(d, ps[0]).next;
    ReservedPrefix(d.frame.buffer, FragmentHeader(ps[0]), Body(ps[0]));
  }

  lemma ReservedPrefix(buf: seq<byte>, hdr: byte, body: seq<byte>)
    ensures buf + [0, 0, 0, 0, hdr] + body == buf + [0, 0, 0, 0] + [hdr] + body
  {
    assert [0, 0, 0, 0, hdr] == [0, 0, 0, 0] + [hdr];
  }

  /** The end fragment, as the last payload of a run. */
  lemma CloseFragment(d: Depacketizer, p: seq<byte>, prefix: seq<byte>, hdr: byte, content: seq<byte>)
    returns (d1: Depacketizer)
    requires IsEndFragment(p) && Pending(d, prefix, hdr, content)
    ensures Feed(d, [p]) == d1
    ensures Closed(d1, prefix, [hdr] + (content + Body(p)))
    ensures d1.frame.packets == d.frame.packets + [RtpPacketInfo(|d.frame.buffer|, |Body(p)|, p[..3])]
  {
    EndFragmentCloses(d, p, prefix, hdr, content);
    EndFragmentRecord(d, p);
    d1 := AddPayload(d, p).next;
    assert Feed(d, [p]) == Feed(d1, []);
  }

  /** The end fragment closing a unit whose reserved prefix sits right after
      `prefix`: the prefix now holds the length of the header byte and all
      bodies, which follow it. */
  lemma EndFragmentCloses(d: Depacketizer, p: seq<byte>, prefix: seq<byte>, hdr: byte, content: seq<byte>)
    requires IsEndFragment(p) && d.startedFrag
    requires d.iniFragNALU == |prefix|
    requires d.frame.buffer == prefix + [0, 0, 0, 0] + [hdr] + content
    ensures Closed(AddPayload(d, p).next, prefix, [hdr] + (content + Body(p)))
  {
    TypeFieldBelow32(p[0]);
    assert AddPayload(d, p) == AddFragment(d, p);
    var d2 := d.(frame := AppendFragmentBody(d.frame, p));
    assert AddFragment(d, p) == EndFragment(d2);
    var appended := d2.frame.buffer;
    var unit := [hdr] + (content + Body(p));
    assert appended == prefix + [0, 0, 0, 0] + unit;
    var n := |appended| - |prefix| - 4;
    assert n == |unit|;
    var f := Set4(d2.frame, |prefix|, n);
    assert EndFragment(d2).next.frame == f;
    assert f.buffer == appended[..|prefix|] + Be32(n) + appended[|prefix| + 4..];
    assert appended[..|prefix|] == prefix;
    assert appended[|prefix| + 4..] == unit;
  }

  lemma {:induction false} BodiesAppend(a: seq<seq<byte>>, b: seq<seq<byte>>)
    ensures Bodies(a + b) == Bodies(a) + Bodies(b)
    decreases |a|
  {
    if a != [] {
      assert (a + b)[1..] == a[1..] + b;
      BodiesAppend(a[1..], b);
    } else {
      assert a + b == b;
    }
  }

  // ---------------------------------------------------------------------
  // AddPacket

  /** A packet with a new timestamp discards the frame in progress: the call
      behaves as on a freshly reset depacketizer, and the frame takes the
      packet's timing. */
  lemma NewTimestampStartsOver(d: Depacketizer, pkt: RtpPacket)
    requires d.frame.timestamp != pkt.extTimestamp
    ensures AddPacket(d, pkt) == AddPacket(ResetFrame(d), pkt)
    ensures AddPacket(d, pkt).next == AddPayload(Stamped(ResetFrame(d), pkt), pkt.media).next
    ensures var f := AddPacket(d, pkt).next.frame;
      f.clockRate == pkt.clockRate && f.time == pkt.time && f.senderTime == pkt.senderTime
    ensures AddPacket(d, pkt).next.frame.intra == RaisesIntra(pkt.media)
  {
    var r := Stamped(ResetFrame(d), pkt);
    AddPayloadKeeps(r, pkt.media);
    IntraFlag(r, pkt.media);
  }

  /** A packet whose timestamp equals the sentinel the frame still holds:
      no reset, and the frame takes the packet's timing before its payload
      is added. */
  lemma SentinelTimestampAdopted(d: Depacketizer, pkt: RtpPacket)
    requires d.frame.timestamp == pkt.extTimestamp == NoTimestamp
    ensures AddPacket(d, pkt).next == AddPayload(Stamped(d, pkt), pkt.media).next
    ensures var f := AddPacket(d, pkt).next.frame;
      f.clockRate == pkt.clockRate && f.time == pkt.time && f.senderTime == pkt.senderTime
    ensures AddPacket(d, pkt).next.frame.intra == (d.frame.intra || RaisesIntra(pkt.media))
  {
    var r := Stamped(d, pkt);
    AddPayloadKeeps(r, pkt.media);
    IntraFlag(r, pkt.media);
  }

  /** The depacketizer with the packet's timestamp, timing and SSRC on its
      frame. */
  function Stamped(d: Depacketizer, pkt: RtpPacket): (r: Depacketizer)
  {
    d.(frame := d.frame.(timestamp := pkt.extTimestamp, clockRate := pkt.clockRate,
                         time := pkt.time, senderTime := pkt.senderTime, ssrc := pkt.ssrc))
  }

  /** A packet with the frame's own (set) timestamp adds its payload to the
      frame in progress, only the SSRC being refreshed. */
  lemma SameTimestampAccumulates(d: Depacketizer, pkt: RtpPacket)
    requires d.frame.timestamp == pkt.extTimestamp != NoTimestamp
    ensures AddPacket(d, pkt).next == AddPayload(d.(frame := d.frame.(ssrc := pkt.ssrc)), pkt.media).next
    ensures AddPacket(d, pkt).next.frame.intra == (d.frame.intra || RaisesIntra(pkt.media))
  {
    IntraFlag(d.(frame := d.frame.(ssrc := pkt.ssrc)), pkt.media);
  }

  /** `AddPacket` over the packets in order. */
  function FeedPackets(d: Depacketizer, pkts: seq<RtpPacket>): (r: Depacketizer)
    decreases |pkts|
  {
    if pkts == [] then d else FeedPackets(AddPacket(d, pkts[0]).next, pkts[1..])
  }

  /** Every state reached from the constructed depacketizer by packets has
      the invariant. */
  lemma {:induction false} PacketsKeepValid(d: Depacketizer, pkts: seq<RtpPacket>)
    requires Valid(d)
    ensures Valid(FeedPackets(d, pkts))
    decreases |pkts|
  {
    if pkts != [] {
      PacketsKeepValid(AddPacket(d, pkts[0]).next, pkts[1..]);
    }
  }

  lemma ReachableValid(pkts: seq<RtpPacket>)
    ensures Valid(FeedPackets(Init(), pkts))
  {
    PacketsKeepValid(Init(), pkts);
  }

  function Medias(pkts: seq<RtpPacket>): (ms: seq<seq<byte>>)
    ensures |ms| == |pkts|
    ensures forall i :: 0 <= i < |pkts| ==> ms[i] == pkts[i].media
  {
    if pkts == [] then [] else [pkts[0].media] + Medias(pkts[1..])
  }

  /** Single-unit packets of the frame's own timestamp append their
      payloads, length-prefixed, in arrival order. */
  lemma {:induction false} SingleUnitPacketsAccumulate(d: Depacketizer, pkts: seq<RtpPacket>)
    requires forall i :: 0 <= i < |pkts| ==> pkts[i].extTimestamp == d.frame.timestamp
    requires forall i :: 0 <= i < |pkts| ==> IsSingleNal(pkts[i].media)
    ensures FeedPackets(d, pkts).frame.buffer == d.frame.buffer + Framed(Medias(pkts))
    ensures FeedPackets(d, pkts).frame.intra == (d.frame.intra || HasIntraNal(Medias(pkts)))
    ensures FeedPackets(d, pkts).frame.timestamp == d.frame.timestamp
    decreases |pkts|
  {
    if pkts != [] {
      var d1 := SingleUnitPacketStep(d, pkts);
      SingleUnitPacketsAccumulate(d1, pkts[1..]);
      var f := FeedPackets(d1, pkts[1..]).frame;
      FramedStep(d.frame.buffer, d1.frame.buffer, f.buffer, pkts);
      IntraStep(d.frame.intra, d1.frame.intra, f.intra, pkts);
    }
  }

  /** The single-unit packet at the head of a run that keeps the frame's timestamp. */
  lemma SingleUnitPacketStep(d: Depacketizer, pkts: seq<RtpPacket>) returns (d1: Depacketizer)
    requires pkts != [] && pkts[0].extTimestamp == d.frame.timestamp && IsSingleNal(pkts[0].media)
    ensures FeedPackets(d, pkts) == FeedPackets(d1, pkts[1..])
    ensures d1.frame.buffer == d.frame.buffer + Be32(|pkts[0].media|) + pkts[0].media
    ensures d1.frame.intra == (d.frame.intra || IsIntraType(Low5(pkts[0].media[0])))
    ensures d1.frame.timestamp == d.frame.timestamp
  {
    var pkt := pkts[0];
    var d0 := d.(frame := (if d.frame.timestamp == NoTimestamp
      then d.frame.(timestamp := pkt.extTimestamp, clockRate := pkt.clockRate,
                    time := pkt.time, senderTime := pkt.senderTime)
      else d.frame).(ssrc := pkt.ssrc));
    d1 := AddPacket(d, pkt).next;
    assert d1 == AddPayload(d0, pkt.media).next;
    SingleNalAppended(d0, pkt.media);
    IntraFlag(d0, pkt.media);
  }

  lemma FramedStep(buf0: seq<byte>, buf1: seq<byte>, out: seq<byte>, pkts: seq<RtpPacket>)
    requires pkts != []
    requires buf1 == buf0 + Be32(|pkts[0].media|) + pkts[0].media
    requires out == buf1 + Framed(Medias(pkts[1..]))
    ensures out == buf0 + Framed(Medias(pkts))
  {
    var ms := Medias(pkts);
    assert ms == [pkts[0].media] + Medias(pkts[1..]);
    assert ms[1..] == Medias(pkts[1..]);
  }

  lemma IntraStep(intra0: bool, intra1: bool, out: bool, pkts: seq<RtpPacket>)
    requires pkts != [] && |pkts[0].media| > 0
    requires intra1 == (intra0 || IsIntraType(Low5(pkts[0].media[0])))
    requires out == (intra1 || HasIntraNal(Medias(pkts[1..])))
    ensures out == (intra0 || HasIntraNal(Medias(pkts)))
  {
    var ms := Medias(pkts);
    assert ms == [pkts[0].media] + Medias(pkts[1..]);
    assert ms[1..] == Medias(pkts[1..]);
    HasIntraNalCons(ms);
  }

  lemma HasIntraNalCons(ms: seq<seq<byte>>)
    requires ms != [] && |ms[0]| > 0
    ensures HasIntraNal(ms) == (IsIntraType(Low5(ms[0][0])) || HasIntraNal(ms[1..]))
  {
    if HasIntraNal(ms[1..]) {
      var k :| 0 <= k < |ms[1..]| && 0 < |ms[1..][k]| && IsIntraType(Low5(ms[1..][k][0]));
      assert ms[k + 1] == ms[1..][k];
    }
    if HasIntraNal(ms) && !IsIntraType(Low5(ms[0][0])) {
      var k :| 0 <= k < |ms| && 0 < |ms[k]| && IsIntraType(Low5(ms[k][0]));
      assert ms[1..][k - 1] == ms[k];
    }
  }

  /** One frame from single-unit packets: packets sharing a timestamp new to
      the depacketizer yield a buffer holding exactly their payloads,
      length-prefixed, in arrival order, and the frame is intra exactly when
      one of them has an intra type. */
  lemma SingleUnitFrame(d: Depacketizer, pkts: seq<RtpPacket>)
    requires |pkts| > 0
    requires d.frame.timestamp != pkts[0].extTimestamp
    requires forall i :: 0 <= i < |pkts| ==> pkts[i].extTimestamp == pkts[0].extTimestamp
    requires forall i :: 0 <= i < |pkts| ==> IsSingleNal(pkts[i].media)
    ensures FeedPackets(d, pkts).frame.buffer == Framed(Medias(pkts))
    ensures FeedPackets(d, pkts).frame.intra == HasIntraNal(Medias(pkts))
    ensures Fits(Medias(pkts)) ==> Unframe(FeedPackets(d, pkts).frame.buffer) == Some(Medias(pkts))
  {
    var pkt := pkts[0];
    var r := ResetFrame(d);
    var d0 := r.(frame := r.frame.(timestamp := pkt.extTimestamp, clockRate := pkt.clockRate,
                                   time := pkt.time, senderTime := pkt.senderTime, ssrc := pkt.ssrc));
    var d1 := AddPacket(d, pkt).next;
    assert d1 == AddPayload(d0, pkt.media).next;
    SingleNalAppended(d0, pkt.media);
    IntraFlag(d0, pkt.media);
    SingleUnitPacketsAccumulate(d1, pkts[1..]);
    var ms := Medias(pkts);
    assert ms == [pkt.media] + Medias(pkts[1..]);
    assert ms[1..] == Medias(pkts[1..]);
    HasIntraNalCons(ms);
    if Fits(ms) {
      UnframeFramed(ms);
    }
  }
}

=== FILE: fragment_recovery.dfy ===
/** A start fragment that arrives while another fragmented unit is still
    pending, its end fragment lost.  Lines 224-233 overwrite `iniFragNALU`
    and leave the unfinished unit's four zero bytes, header byte and bodies
    in the frame, which then no longer reads as length-prefixed units.
    `AddPayloadDropping` drops the unfinished unit first; with that one
    change every call keeps the frame readable. */
module FragmentRecovery {
  import opened Bytes
  import opened Wrappers
  import opened MediaFrame
  import opened UnitStream
  import opened Aggregation
  import opened H265Depacketizer
  import opened DepacketizerProperties
  import opened SeqFacts

  /** Where the finished units end: at the reserved prefix of a pending
      unit, or at the end of the buffer. */
  function ClosedEnd(d: Depacketizer): (r: nat)
  {
    if d.startedFrag then d.iniFragNALU else |d.frame.buffer|
  }

  /** The finished part of the buffer reads as length-prefixed units. */
  predicate ReadsAsUnits(d: Depacketizer)
  {
    ClosedEnd(d) <= |d.frame.buffer| && Unframe(d.frame.buffer[..ClosedEnd(d)]).Some?
  }

  /** The invariant together with a readable finished part. */
  predicate WellFramed(d: Depacketizer)
  {
    Valid(d) && ReadsAsUnits(d)
  }

  /** A start fragment arriving while a fragmented unit is pending. */
  predicate RestartsPending(d: Depacketizer, p: seq<byte>)
  {
    d.startedFrag && IsFragment(p) && StartBit(p[2])
  }

  // ---------------------------------------------------------------------
  // As written

  /** Three payloads fed one after the other. */
  lemma FeedThree(d: Depacketizer, a: seq<byte>, b: seq<byte>, c: seq<byte>)
    ensures Feed(d, [a, b, c]) == AddPayload(AddPayload(AddPayload(d, a).next, b).next, c).next
  {
    var d1 := AddPayload(d, a).next;
    var d2 := AddPayload(d1, b).next;
    var d3 := AddPayload(d2, c).next;
    assert [a, b, c][0] == a && [a, b, c][1..] == [b, c];
    assert [b, c][0] == b && [b, c][1..] == [c];
    assert [c][0] == c && [c][1..] == [];
    assert Feed(d, [a, b, c]) == Feed(d1, [b, c]);
    assert Feed(d1, [b, c]) == Feed(d2, [c]);
    assert Feed(d2, [c]) == Feed(d3, []);
  }

  /** A start fragment while a unit is pending, then an end fragment: the
      new unit is written, length-prefixed, after everything the buffer
      held, and the pending unit's reserved bytes are never patched. */
  lemma RestartKeepsPending(d: Depacketizer, s: seq<byte>, e: seq<byte>)
    requires IsStartFragment(s) && IsEndFragment(e)
    ensures var u := [Splice(s[0], s[2])] + s[3..] + e[3..];
      var n := AddPayload(AddPayload(d, s).next, e).next;
      n.frame.buffer == d.frame.buffer + Be32(|u|) + u && !n.startedFrag
  {
    StartFragmentAppended(d, s);
    var d1 := AddPayload(d, s).next;
    EndFragmentFrames(d1, e);
    var reserved := [0, 0, 0, 0, Splice(s[0], s[2])];
    assert d1.frame.buffer == d.frame.buffer + reserved + s[3..];
    assert d1.frame.buffer[..d1.iniFragNALU] == d.frame.buffer;
    assert d1.frame.buffer[d1.iniFragNALU + 4..] == [Splice(s[0], s[2])] + s[3..];
  }

  /** The payloads of `LostEndBreaksFraming`: two start fragments of type 1
      and an end fragment. */
  lemma ExampleShapes(s1: seq<byte>, s2: seq<byte>, e: seq<byte>)
    requires s1 == [29, 0, 0x81, 7] && s2 == [29, 0, 0x81, 8] && e == [29, 0, 0x41, 9]
    ensures IsStartFragment(s1) && IsStartFragment(s2) && IsEndFragment(e)
  {
  }

  /** The bytes `LostEndBreaksFraming` ends with: the first unit's reserved
      prefix and body, then the second unit with its length. */
  lemma LostEndBytes(s1: seq<byte>, s2: seq<byte>, e: seq<byte>)
    requires s1 == [29, 0, 0x81, 7] && s2 == [29, 0, 0x81, 8] && e == [29, 0, 0x41, 9]
    ensures var u := [Splice(s2[0], s2[2])] + s2[3..] + e[3..];
      [] + [0, 0, 0, 0, Splice(s1[0], s1[2])] + s1[3..] + Be32(|u|) + u
      == [0, 0, 0, 0, 1, 7, 0, 0, 0, 3, 1, 8, 9]
  {
    assert Splice(29, 0x81) == 1;
    assert [Splice(s2[0], s2[2])] + s2[3..] + e[3..] == [1, 8, 9];
    assert Be32(3) == [0, 0, 0, 3];
  }

  /** The buffer `LostEndBreaksFraming` ends with does not read as units:
      its first unit is empty and the next four bytes announce more than
      remains. */
  lemma ZeroPrefixUnreadable(b: seq<byte>)
    requires b == [0, 0, 0, 0, 1, 7, 0, 0, 0, 3, 1, 8, 9]
    ensures Unframe(b) == None
  {
    assert ReadBe32(b, 0) == 0;
    assert b[4..] == [1, 7, 0, 0, 0, 3, 1, 8, 9];
    assert ReadBe32(b[4..], 0) == 0x0107_0000;
  }

  /** Start `[29, 0, 0x81, 7]`, start `[29, 0, 0x81, 8]`, end
      `[29, 0, 0x41, 9]` from the constructed depacketizer: the first
      unit's reserved bytes stay zero, the patched length covers only the
      second unit, and the frame does not read as units. */
  lemma LostEndBreaksFraming(s1: seq<byte>, s2: seq<byte>, e: seq<byte>)
    requires s1 == [29, 0, 0x81, 7] && s2 == [29, 0, 0x81, 8] && e == [29, 0, 0x41, 9]
    ensures WellFramed(Init())
    ensures var d := Feed(Init(), [s1, s2, e]);
      d.frame.buffer == [0, 0, 0, 0, 1, 7, 0, 0, 0, 3, 1, 8, 9]
      && !d.startedFrag
      && Unframe(d.frame.buffer) == None
      && !WellFramed(d)
  {
    ExampleShapes(s1, s2, e);
    var d0 := Init();
    assert d0.frame.buffer[..ClosedEnd(d0)] == [];
    FeedThree(d0, s1, s2, e);
    StartFragmentAppended(d0, s1);
    var d1 := AddPayload(d0, s1).next;
    RestartKeepsPending(d1, s2, e);
    LostEndBytes(s1, s2, e);
    var d := Feed(d0, [s1, s2, e]);
    ZeroPrefixUnreadable(d.frame.buffer);
    assert d.frame.buffer[..ClosedEnd(d)] == d.frame.buffer;
  }

  /** The code as written keeps the frame readable on every call but one: a
      start fragment while a unit is pending.  The frame is taken to stay
      under 4 GiB, as the DWORD lengths need. */
  lemma FramingKept(d: Depacketizer, p: seq<byte>)
    requires WellFramed(d) && !RestartsPending(d, p)
    requires |AddPayload(d, p).next.frame.buffer| < Two32
    ensures WellFramed(AddPayload(d, p).next)
  {
    AddPayloadKeeps(d, p);
    if |p| >= 2 {
      TypeFieldBelow32(p[0]);
      var t := Low5(p[0]);
      if t == AggregationType {
        AggregationFramingKept(d, p);
      } else if t != FragmentationType {
        SingleFramingKept(d, p);
      } else if |p| >= 3 {
        FragmentFramingKept(d, p);
      }
    }
  }

  lemma AggregationFramingKept(d: Depacketizer, p: seq<byte>)
    requires ReadsAsUnits(d) && |p| >= 2 && Low5(p[0]) == AggregationType
    ensures ReadsAsUnits(AddPayload(d, p).next)
  {
    AggregationAppended(d, p);
    AppendedFramed(d, AddPayload(d, p).next, SubUnits(p[2..]));
  }

  lemma SingleFramingKept(d: Depacketizer, p: seq<byte>)
    requires ReadsAsUnits(d) && IsSingleNal(p)
    requires |AddPayload(d, p).next.frame.buffer| < Two32
    ensures ReadsAsUnits(AddPayload(d, p).next)
  {
    SingleNalAppended(d, p);
    assert Framed([p]) == Be32(|p|) + p + Framed([]);
    assert Be32(|p|) + p + [] == Be32(|p|) + p;
    AppendAssoc(d.frame.buffer, Be32(|p|), p);
    AppendedFramed(d, AddPayload(d, p).next, [p]);
  }

  /** Units appended by a call that leaves the fragment state alone keep the
      finished part readable. */
  lemma AppendedFramed(d: Depacketizer, n: Depacketizer, units: seq<seq<byte>>)
    requires ReadsAsUnits(d) && Fits(units)
    requires n.frame.buffer == d.frame.buffer + Framed(units)
    requires n.startedFrag == d.startedFrag && n.iniFragNALU == d.iniFragNALU
    ensures ReadsAsUnits(n)
  {
    var c := d.frame.buffer[..ClosedEnd(d)];
    if d.startedFrag {
      assert n.frame.buffer[..ClosedEnd(n)] == c;
    } else {
      assert c == d.frame.buffer;
      assert n.frame.buffer[..ClosedEnd(n)] == c + Framed(units);
      UnframeAppend(c, units);
    }
  }

  lemma FragmentFramingKept(d: Depacketizer, p: seq<byte>)
    requires WellFramed(d) && IsFragment(p) && !RestartsPending(d, p)
    requires |AddPayload(d, p).next.frame.buffer| < Two32
    ensures ReadsAsUnits(AddPayload(d, p).next)
  {
    var n := AddPayload(d, p).next;
    var c := d.frame.buffer[..ClosedEnd(d)];
    if !StartBit(p[2]) && !d.startedFrag {
      OrphanFragmentIgnored(d, p);
    } else if !StartBit(p[2]) && !EndBit(p[2]) {
      MiddleFragmentAppended(d, p);
      assert n.frame.buffer[..d.iniFragNALU] == c;
    } else if !StartBit(p[2]) {
      EndFragmentFrames(d, p);
      var rest := d.frame.buffer[d.iniFragNALU + 4..] + p[3..];
      assert n.frame.buffer[..ClosedEnd(n)] == c + Be32(|rest|) + rest;
      UnframeSnoc(c, rest);
    } else if !EndBit(p[2]) {
      StartFragmentAppended(d, p);
      assert c == d.frame.buffer;
      assert n.frame.buffer[..ClosedEnd(n)] == c;
    } else {
      WholeFragmentFrames(d, p);
      var u := [Splice(p[0], p[2])] + p[3..];
      assert c == d.frame.buffer;
      assert n.frame.buffer[..ClosedEnd(n)] == c + Be32(|u|) + u;
      UnframeSnoc(c, u);
    }
  }

  /** Patching the reserved prefix makes it the length of everything after it. */
  lemma PatchedFrames(d: Depacketizer)
    requires d.iniFragNALU + 4 <= |d.frame.buffer|
    ensures var rest := d.frame.buffer[d.iniFragNALU + 4..];
      EndFragment(d).next.frame.buffer == d.frame.buffer[..d.iniFragNALU] + Be32(|rest|) + rest
      && !EndFragment(d).next.startedFrag
  {
    var rest := d.frame.buffer[d.iniFragNALU + 4..];
    assert |rest| == |d.frame.buffer| - d.iniFragNALU - 4;
  }

  /** An end fragment of a pending unit leaves the finished units, the
      patched length, and everything after the reserved prefix with the
      new body: whatever was appended since the start fragment counts as
      part of the unit. */
  lemma EndFragmentFrames(d: Depacketizer, p: seq<byte>)
    requires IsEndFragment(p) && d.startedFrag && d.iniFragNALU + 4 <= |d.frame.buffer|
    ensures var rest := d.frame.buffer[d.iniFragNALU + 4..] + p[3..];
      AddPayload(d, p).next.frame.buffer == d.frame.buffer[..d.iniFragNALU] + Be32(|rest|) + rest
      && !AddPayload(d, p).next.startedFrag && AddPayload(d, p).next.iniFragNALU == 0
  {
    TypeFieldBelow32(p[0]);
    var d2 := d.(frame := AppendFragmentBody(d.frame, p));
    assert AddPayload(d, p) == EndFragment(d2);
    PatchedFrames(d2);
    assert d2.frame.buffer[..d.iniFragNALU] == d.frame.buffer[..d.iniFragNALU];
    assert d2.frame.buffer[d.iniFragNALU + 4..] == d.frame.buffer[d.iniFragNALU + 4..] + p[3..];
  }

  /** A fragment with both the S and E bits set is a whole unit: its rebuilt
      header and body, length-prefixed, after the old buffer. */
  lemma WholeFragmentFrames(d: Depacketizer, p: seq<byte>)
    requires IsFragment(p) && StartBit(p[2]) && EndBit(p[2])
    ensures var u := [Splice(p[0], p[2])] + p[3..];
      AddPayload(d, p).next.frame.buffer == d.frame.buffer + Be32(|u|) + u
      && !AddPayload(d, p).next.startedFrag && AddPayload(d, p).next.iniFragNALU == 0
  {
    TypeFieldBelow32(p[0]);
    var d1 := StartFragment(d, p);
    var d2 := d1.(frame := AppendFragmentBody(d1.frame, p));
    assert AddPayload(d, p) == EndFragment(d2);
    PatchedFrames(d2);
    assert d2.frame.buffer[..|d.frame.buffer|] == d.frame.buffer;
    assert d2.frame.buffer[|d.frame.buffer| + 4..] == [Splice(p[0], p[2])] + p[3..];
  }

  // ---------------------------------------------------------------------
  // Corrected

  /** The records that lie wholly before `end`, in order. */
  function RecordsBefore(recs: seq<RtpPacketInfo>, end: nat): (r: seq<RtpPacketInfo>)
    ensures forall k :: 0 <= k < |r| ==> r[k].pos + r[k].size <= end
    ensures forall x :: x in r <==> x in recs && x.pos + x.size <= end
    ensures Subsequence(r, recs)
    decreases |recs|
  {
    if recs == [] then []
    else
      var rest := RecordsBefore(recs[1..], end);
      assert forall x :: x in recs <==> x == recs[0] || x in recs[1..];
      assert recs == [recs[0]] + recs[1..];
      if recs[0].pos + recs[0].size <= end then
        SubsequenceKeep(recs[0], rest, recs[1..]);
        [recs[0]] + rest
      else
        SubsequenceSkip(recs[0], rest, recs[1..]);
        rest
  }

  /** When every record lies before `end`, none is dropped. */
  lemma {:induction false} RecordsBeforeKeepsAll(recs: seq<RtpPacketInfo>, end: nat)
    requires forall k :: 0 <= k < |recs| ==> recs[k].pos + recs[k].size <= end
    ensures RecordsBefore(recs, end) == recs
    decreases |recs|
  {
    if recs != [] {
      assert recs[0].pos + recs[0].size <= end;
      RecordsBeforeKeepsAll(recs[1..], end);
      assert recs == [recs[0]] + recs[1..];
    }
  }

  /** The pending unit dropped: the buffer cut back to its reserved prefix,
      its records removed, the fragment state cleared.  The intra flag and
      the metadata stay. */
  function DropPending(d: Depacketizer): (r: Depacketizer)
    ensures !r.startedFrag && r.iniFragNALU == 0
    ensures ClosedEnd(d) <= |d.frame.buffer| ==> r.frame.buffer == d.frame.buffer[..ClosedEnd(d)]
    ensures forall x :: x in r.frame.packets ==> x in d.frame.packets
    ensures ClosedEnd(d) <= |d.frame.buffer| ==>
      forall x :: x in d.frame.packets && x.pos + x.size <= ClosedEnd(d) ==> x in r.frame.packets
    ensures r.frame.intra == d.frame.intra && SameMetadata(d.frame, r.frame)
    ensures Valid(d) ==> Valid(r)
  {
    if !d.startedFrag then Depacketizer(d.frame, 0, false)
    else
      var end := if d.iniFragNALU <= |d.frame.buffer| then d.iniFragNALU else |d.frame.buffer|;
      var f := d.frame.(buffer := d.frame.buffer[..end], packets := RecordsBefore(d.frame.packets, end));
      Depacketizer(f, 0, false)
  }

  /** `AddPayload` with the pending unit dropped before a new start fragment. */
  function AddPayloadDropping(d: Depacketizer, p: seq<byte>): (r: Step)
    ensures r.out.Some? ==> r.out.value == r.next.frame
    ensures !RestartsPending(d, p) ==> r == AddPayload(d, p)
    ensures RestartsPending(d, p) && ClosedEnd(d) <= |d.frame.buffer| ==> d.frame.buffer[..ClosedEnd(d)] <= r.next.frame.buffer
  {
    if RestartsPending(d, p) then
      var r := DropPending(d);
      if EndBit(p[2]) then
        WholeFragmentFrames(r, p);
        AddPayload(r, p)
      else
        StartFragmentAppended(r, p);
        AddPayload(r, p)
    else AddPayload(d, p)
  }

  /** With the pending unit dropped, every call keeps the finished units
      readable, under the same 4 GiB bound. */
  lemma DroppingKeepsFraming(d: Depacketizer, p: seq<byte>)
    requires WellFramed(d)
    requires |AddPayloadDropping(d, p).next.frame.buffer| < Two32
    ensures WellFramed(AddPayloadDropping(d, p).next)
  {
    if RestartsPending(d, p) {
      var r := DropPending(d);
      assert r.frame.buffer[..ClosedEnd(r)] == d.frame.buffer[..ClosedEnd(d)];
      FramingKept(r, p);
    } else {
      FramingKept(d, p);
    }
  }

  /** A start fragment while a unit is pending, then an end fragment, with
      the pending unit dropped: the new unit is written, length-prefixed,
      right after the finished units. */
  lemma RestartDropsPending(d: Depacketizer, s: seq<byte>, e: seq<byte>)
    requires Valid(d) && d.startedFrag
    requires IsStartFragment(s) && IsEndFragment(e)
    ensures var u := [Splice(s[0], s[2])] + s[3..] + e[3..];
      var n := AddPayloadDropping(AddPayloadDropping(d, s).next, e).next;
      n.frame.buffer == d.frame.buffer[..d.iniFragNALU] + Be32(|u|) + u && !n.startedFrag
  {
    var r := DropPending(d);
    StartFragmentAppended(r, s);
    var d1 := AddPayloadDropping(d, s).next;
    assert d1 == AddPayload(r, s).next;
    RestartKeepsPending(r, s, e);
  }

  /** The input of `LostEndBreaksFraming` with the pending unit dropped:
      the frame holds the second unit alone, and reads back as it. */
  lemma DroppingRecovers(s1: seq<byte>, s2: seq<byte>, e: seq<byte>)
    requires s1 == [29, 0, 0x81, 7] && s2 == [29, 0, 0x81, 8] && e == [29, 0, 0x41, 9]
    ensures var d1 := AddPayload(Init(), s1).next;
      var d3 := AddPayloadDropping(AddPayloadDropping(d1, s2).next, e).next;
      d3.frame.buffer == [0, 0, 0, 3, 1, 8, 9] && Unframe(d3.frame.buffer) == Some([[1, 8, 9]])
  {
    ExampleShapes(s1, s2, e);
    StartFragmentAppended(Init(), s1);
    var d1 := AddPayload(Init(), s1).next;
    AddPayloadKeeps(Init(), s1);
    RestartDropsPending(d1, s2, e);
    RecoveredBytes(s2, e);
    RecoveredReadsBack([0, 0, 0, 3, 1, 8, 9]);
  }

  lemma RecoveredReadsBack(b: seq<byte>)
    requires b == [0, 0, 0, 3, 1, 8, 9]
    ensures Unframe(b) == Some([[1, 8, 9]])
  {
    UnframeOne([1, 8, 9]);
    assert Be32(3) == [0, 0, 0, 3];
    assert Be32(|[1, 8, 9]|) + [1, 8, 9] == b;
  }

  /** The bytes `DroppingRecovers` ends with: the second unit alone. */
  lemma RecoveredBytes(s2: seq<byte>, e: seq<byte>)
    requires s2 == [29, 0, 0x81, 8] && e == [29, 0, 0x41, 9]
    ensures var u := [Splice(s2[0], s2[2])] + s2[3..] + e[3..];
      u == [1, 8, 9] && [] + Be32(|u|) + u == [0, 0, 0, 3, 1, 8, 9]
  {
    assert Splice(29, 0x81) == 1;
    assert Be32(3) == [0, 0, 0, 3];
  }
}

=== FILE: h265_depacketizer.dfy ===
/** `H265Depacketizer` (src/h265/H265Depacketizer.cpp) as a pure state machine.

    The state is the frame under construction plus the two fragment fields
    `iniFragNALU` (where the pending fragmented unit's length prefix starts)
    and `startedFrag`.  `AddPayload` and `AddPacket` return the next state
    together with what the C++ returns: `Some(frame)` for `&frame`, `None`
    for `NULL`.

    The unit type is read as the code reads it, `payload[0] & 0x1f`, and
    dispatched on the values 24 (aggregation) and 29 (fragmentation unit),
    while the 2-byte payload header and the fragmentation-unit header at
    byte 2 follow the H.265 layout. */
module H265Depacketizer {
  import opened Bytes
  import opened Wrappers
  import opened MediaFrame
  import opened UnitStream
  import opened Aggregation
  import opened SeqFacts

  /** The constructor's clock rate, `frame.SetClockRate(90000)`. */
  const VideoClockRate: nat := 90000

  /** The type value the code treats as an aggregation packet. */
  const AggregationType: nat := 24

  /** The type value the code treats as a fragmentation unit. */
  const FragmentationType: nat := 29

  /** The type, read from a start fragment's synthetic header, that marks the frame intra. */
  const FragmentIntraType: nat := 5

  /** AUD, EOS, EOB and FD (lines 99-104): dropped without touching the frame. */
  predicate IsUndefinedType(t: nat)
  {
    t == 35 || t == 36 || t == 37 || t == 38
  }

  /** IDR (19, 20), SPS (33) and PPS (34): the types that make a frame intra. */
  predicate IsIntraType(t: nat)
  {
    t == 19 || t == 20 || t == 33 || t == 34
  }

  datatype Depacketizer = Depacketizer(frame: Frame, iniFragNALU: nat, startedFrag: bool)

  /** The state after one call and the pointer the call returns. */
  datatype Step = Step(next: Depacketizer, out: Option<Frame>)

  /** What the rest of the depacketizer relies on: a pending fragment's
      length prefix and synthetic header byte are in the buffer, the offset
      is zero when no fragment is pending, and every record lies inside the
      buffer. */
  predicate Valid(d: Depacketizer)
  {
    (d.startedFrag ==> d.iniFragNALU + 5 <= |d.frame.buffer|)
    && (!d.startedFrag ==> d.iniFragNALU == 0)
    && RecordsInBuffer(d.frame)
  }

  /** The constructed depacketizer.  The `MediaFrame` constructor is not part
      of this model; the frame is taken to start as a reset frame would be. */
  function Init(): (d: Depacketizer)
    ensures Valid(d) && !d.startedFrag
    ensures d.frame.buffer == [] && d.frame.clockRate == VideoClockRate
    ensures d.frame.timestamp == NoTimestamp
  {
    Depacketizer(NewFrame(VideoClockRate), 0, false)
  }

  /** `ResetFrame()` (lines 25-33). */
  function ResetFrame(d: Depacketizer): (r: Depacketizer)
    ensures Valid(r)
    ensures r.frame.buffer == [] && r.frame.packets == [] && !r.frame.intra
    ensures r.frame.timestamp == NoTimestamp && !r.startedFrag
  {
    Depacketizer(Reset(d.frame), 0, false)
  }

  /** One complete unit appended as the single-unit branch (lines 263-286)
      and each pass of the aggregation loop (lines 156-181) do it: the intra
      check on `nal[0] & 0x1f`, the 4-byte length, the bytes, one record. */
  function AppendNal(f: Frame, nal: seq<byte>): (g: Frame)
    requires 0 < |nal|
    ensures g.buffer == f.buffer + Be32(|nal|) + nal
    ensures g.packets == f.packets + [RtpPacketInfo(|f.buffer| + 4, |nal|, [])]
    ensures g.intra == (f.intra || IsIntraType(Low5(nal[0])))
    ensures SameMetadata(f, g)
  {
    var f1 := if IsIntraType(Low5(nal[0])) then SetIntra(f) else f;
    var f2 := AppendMedia(f1, Be32(|nal|)).0;
    var (f3, pos) := AppendMedia(f2, nal);
    AddRtpPacket(f3, pos, |nal|, [])
  }

  /** The aggregation loop (lines 142-185) over the body `rest` that follows
      the 2-byte payload header.  It only appends: the old buffer and records
      stay a prefix, the intra flag is never cleared, and a body too short
      for a length field adds nothing. */
  function AggregationLoop(f: Frame, rest: seq<byte>): (g: Frame)
    ensures f.buffer <= g.buffer && f.packets <= g.packets
    ensures f.intra ==> g.intra
    ensures SameMetadata(f, g)
    ensures |rest| <= 2 ==> g == f
    decreases |rest|
  {
    if |rest| <= 2 then f
    else
      var nalSize := Get2(rest, 0);
      var remaining := rest[2..];
      if nalSize == 0 || nalSize > |remaining| then f
      else AggregationLoop(AppendNal(f, remaining[..nalSize]), remaining[nalSize..])
  }

  /** The start-fragment block (lines 211-234): intra check on the synthetic
      header's type, remember where the length prefix goes, reserve it as
      four zero bytes, then append the synthetic header byte. */
  function StartFragment(d: Depacketizer, payload: seq<byte>): (r: Depacketizer)
    requires 3 <= |payload|
    ensures r.startedFrag && r.iniFragNALU == |d.frame.buffer|
    ensures r.frame.buffer == d.frame.buffer + [0, 0, 0, 0, Splice(payload[0], payload[2])]
    ensures r.frame.packets == d.frame.packets && SameMetadata(d.frame, r.frame)
    ensures r.frame.intra == (d.frame.intra || Low5(payload[2]) == FragmentIntraType)
  {
    var fragNalHeader := Splice(payload[0], payload[2]);
    SpliceFields(payload[0], payload[2]);
    var f1 := if Low5(fragNalHeader) == FragmentIntraType then SetIntra(d.frame) else d.frame;
    var ini := |f1.buffer|;
    var f2 := AppendMedia(f1, Be32(0)).0;
    var f3 := AppendMedia(f2, [fragNalHeader]).0;
    d.(frame := f3, iniFragNALU := ini, startedFrag := true)
  }

  /** Lines 241-244: the fragment's body, after its three header bytes, and
      one record carrying those three bytes. */
  function AppendFragmentBody(f: Frame, payload: seq<byte>): (g: Frame)
    requires 3 <= |payload|
    ensures g.buffer == f.buffer + payload[3..]
    ensures g.packets == f.packets + [RtpPacketInfo(|f.buffer|, |payload| - 3, payload[..3])]
    ensures g.intra == f.intra && SameMetadata(f, g)
  {
    var (f1, pos) := AppendMedia(f, payload[3..]);
    AddRtpPacket(f1, pos, |payload| - 3, payload[..3])
  }

  /** Lines 247-260, on the end fragment: check the reserved prefix is in the
      buffer, patch it with the number of bytes after it, and clear the
      fragment state. */
  function EndFragment(d: Depacketizer): (r: Step)
    ensures d.iniFragNALU + 4 > |d.frame.buffer| ==> r == Step(d, None)
    ensures d.iniFragNALU + 4 <= |d.frame.buffer| ==>
      r.out == Some(r.next.frame) && !r.next.startedFrag && r.next.iniFragNALU == 0
      && r.next.frame == Set4(d.frame, d.iniFragNALU, |d.frame.buffer| - d.iniFragNALU - 4)
  {
    if d.iniFragNALU + 4 > |d.frame.buffer| then Step(d, None)
    else
      var nalSize := |d.frame.buffer| - d.iniFragNALU - 4;
      var d1 := Depacketizer(Set4(d.frame, d.iniFragNALU, nalSize), 0, false);
      Step(d1, Some(d1.frame))
  }

  /** The aggregation-packet branch (lines 105-186): the loop over the
      body after the 2-byte payload header.  The frame is always handed out,
      even when no sub-unit was accepted, and a pending fragmented unit is
      left pending. */
  function AddAggregation(d: Depacketizer, payload: seq<byte>): (r: Step)
    requires 2 <= |payload|
    ensures r.out == Some(r.next.frame)
    ensures r.next.startedFrag == d.startedFrag && r.next.iniFragNALU == d.iniFragNALU
    ensures d.frame.buffer <= r.next.frame.buffer && d.frame.packets <= r.next.frame.packets
    ensures |payload| <= 4 ==> r.next == d
  {
    var d1 := d.(frame := AggregationLoop(d.frame, payload[2..]));
    Step(d1, Some(d1.frame))
  }

  /** The single-unit branch (lines 263-286): the whole payload is one unit,
      appended after its 4-byte length with one record and no stripped
      bytes; the fragment state is untouched and the frame handed out. */
  function AddSingleNal(d: Depacketizer, payload: seq<byte>): (r: Step)
    requires 2 <= |payload|
    ensures r.out == Some(r.next.frame)
    ensures r.next.frame.buffer == d.frame.buffer + Be32(|payload|) + payload
    ensures r.next.frame.packets == d.frame.packets + [RtpPacketInfo(|d.frame.buffer| + 4, |payload|, [])]
    ensures r.next.startedFrag == d.startedFrag && r.next.iniFragNALU == d.iniFragNALU
  {
    var d1 := d.(frame := AppendNal(d.frame, payload));
    Step(d1, Some(d1.frame))
  }

  /** The fragmentation-unit branch (lines 187-262).  A payload without an
      FU header, and a fragment that neither starts a unit nor continues a
      pending one, change nothing and hand nothing out; otherwise records
      are only ever appended and the buffer never shrinks. */
  function AddFragment(d: Depacketizer, payload: seq<byte>): (r: Step)
    requires 2 <= |payload|
    ensures |payload| < 3 ==> r == Step(d, None)
    ensures |payload| >= 3 && !d.startedFrag && !StartBit(payload[2]) ==> r == Step(d, None)
    ensures r.out.Some? ==> r.out.value == r.next.frame
    ensures d.frame.packets <= r.next.frame.packets && |d.frame.buffer| <= |r.next.frame.buffer|
    ensures SameMetadata(d.frame, r.next.frame)
  {
    if |payload| < 3 then Step(d, None)
    else
      var d1 := if StartBit(payload[2]) then StartFragment(d, payload) else d;
      if !d1.startedFrag then Step(d1, None)
      else
        var d2 := d1.(frame := AppendFragmentBody(d1.frame, payload));
        if EndBit(payload[2]) then EndFragment(d2) else Step(d2, Some(d2.frame))
  }

  /** `AddPayload(payload, payloadLen)` (lines 66-290). */
  function AddPayload(d: Depacketizer, payload: seq<byte>): (r: Step)
    ensures |payload| < 2 ==> r == Step(d, None)
    ensures r.out.Some? ==> r.out.value == r.next.frame
  {
    if |payload| < 2 then Step(d, None)
    else
      var nalUnitType := Low5(payload[0]);
      if IsUndefinedType(nalUnitType) then Step(d, None)
      else if nalUnitType == AggregationType then AddAggregation(d, payload)
      else if nalUnitType == FragmentationType then AddFragment(d, payload)
      else AddSingleNal(d, payload)
  }

  /** `AddPayload` keeps the invariant, never clears the intra flag and
      leaves the frame's timing and SSRC alone. */
  lemma AddPayloadKeeps(d: Depacketizer, payload: seq<byte>)
    ensures d.frame.intra ==> AddPayload(d, payload).next.frame.intra
    ensures SameMetadata(d.frame, AddPayload(d, payload).next.frame)
    ensures Valid(d) ==> Valid(AddPayload(d, payload).next)
  {
    if |payload| >= 2 {
      var nalUnitType := Low5(payload[0]);
      if IsUndefinedType(nalUnitType) {
      } else if nalUnitType == AggregationType {
        AggregationLoopIsAppendNals(d.frame, payload[2..]);
        AppendNalsIntra(d.frame, SubUnits(payload[2..]));
        AppendNalsBuffer(d.frame, SubUnits(payload[2..]));
        AppendNalsRecordsInBuffer(d.frame, SubUnits(payload[2..]));
      } else if nalUnitType == FragmentationType {
        AddFragmentValid(d, payload);
      } else {
        AppendNalKeepsRecordsInBuffer(d.frame, payload);
      }
    }
  }

  /** One RTP packet: the fields `AddPacket` reads. */
  datatype RtpPacket = RtpPacket(
    extTimestamp: nat,
    clockRate: nat,
    time: nat,
    senderTime: nat,
    ssrc: nat,
    mark: bool,
    media: seq<byte>)

  /** `AddPacket(packet)` (lines 35-64): start over on a new timestamp, stamp
      a fresh frame with the packet's timing, add the payload, and hand the
      frame out exactly when the packet carries the marker. */
  function AddPacket(d: Depacketizer, packet: RtpPacket): (r: Step)
    ensures r.out.Some? <==> packet.mark
    ensures r.out.Some? ==> r.out.value == r.next.frame
    ensures r.next.frame.timestamp == packet.extTimestamp
    ensures r.next.frame.ssrc == packet.ssrc
    ensures Valid(d) ==> Valid(r.next)
  {
    var d1 := if d.frame.timestamp != packet.extTimestamp then ResetFrame(d) else d;
    var f := d1.frame;
    var f1 := if f.timestamp == NoTimestamp
      then f.(timestamp := packet.extTimestamp, clockRate := packet.clockRate,
              time := packet.time, senderTime := packet.senderTime)
      else f;
    var d2 := AddPayload(d1.(frame := f1.(ssrc := packet.ssrc)), packet.media).next;
    AddPayloadKeeps(d1.(frame := f1.(ssrc := packet.ssrc)), packet.media);
    Step(d2, if packet.mark then Some(d2.frame) else None)
  }

  // Helpers that carry the frame-shape facts through the branches.

  lemma AppendNalKeepsRecordsInBuffer(f: Frame, nal: seq<byte>)
    requires 0 < |nal|
    ensures RecordsInBuffer(f) ==> RecordsInBuffer(AppendNal(f, nal))
  {
    var g := AppendNal(f, nal);
    if RecordsInBuffer(f) {
      forall i | 0 <= i < |g.packets|
        ensures g.packets[i].pos + g.packets[i].size <= |g.buffer|
      {
        if i < |f.packets| {
          assert g.packets[i] == f.packets[i];
        }
      }
    }
  }

  /** `AppendNal` over a list of units, in order. */
  function AppendNals(f: Frame, nals: seq<seq<byte>>): (r: Frame)
    requires AllCarriable(nals)
    decreases |nals|
  {
    if nals == [] then f else AppendNals(AppendNal(f, nals[0]), nals[1..])
  }

  /** The records `AppendNals` adds when the buffer starts at `start`: each
      unit's bytes, after its 4-byte prefix, with no stripped header. */
  function NalRecords(start: nat, nals: seq<seq<byte>>): (r: seq<RtpPacketInfo>)
    ensures |r| == |nals|
    decreases |nals|
  {
    if nals == [] then []
    else [RtpPacketInfo(start + 4, |nals[0]|, [])] + NalRecords(start + 4 + |nals[0]|, nals[1..])
  }

  /** Some unit of `nals` has an intra type. */
  predicate HasIntraNal(nals: seq<seq<byte>>)
  {
    exists i :: 0 <= i < |nals| && 0 < |nals[i]| && IsIntraType(Low5(nals[i][0]))
  }

  /** The aggregation loop appends exactly the accepted sub-units. */
  lemma {:induction false} AggregationLoopIsAppendNals(f: Frame, rest: seq<byte>)
    ensures AggregationLoop(f, rest) == AppendNals(f, SubUnits(rest))
    decreases |rest|
  {
    if !Stops(rest) {
      var nalSize := Get2(rest, 0);
      var nal := rest[2..][..nalSize];
      assert nal == rest[2..2 + nalSize];
      assert rest[2..][nalSize..] == rest[2 + nalSize..];
      assert AggregationLoop(f, rest) == AggregationLoop(AppendNal(f, nal), rest[2 + nalSize..]);
      AggregationLoopIsAppendNals(AppendNal(f, nal), rest[2 + nalSize..]);
      var units := SubUnits(rest);
      assert units == [nal] + SubUnits(rest[2 + nalSize..]);
      assert units[1..] == SubUnits(rest[2 + nalSize..]);
    }
  }

  /** `AppendNals` appends the framed units to the buffer. */
  lemma {:induction false} AppendNalsBuffer(f: Frame, nals: seq<seq<byte>>)
    requires AllCarriable(nals)
    ensures AppendNals(f, nals).buffer == f.buffer + Framed(nals)
    decreases |nals|
  {
    if nals != [] {
      var g := AppendNal(f, nals[0]);
      assert AppendNals(f, nals) == AppendNals(g, nals[1..]);
      AppendNalsBuffer(g, nals[1..]);
      FramedCons(f.buffer, nals);
    }
  }

  /** `AppendNals` appends one record per unit, each naming the unit's bytes. */
  lemma {:induction false} AppendNalsRecords(f: Frame, nals: seq<seq<byte>>)
    requires AllCarriable(nals)
    ensures AppendNals(f, nals).packets == f.packets + NalRecords(|f.buffer|, nals)
    decreases |nals|
  {
    if nals != [] {
      var g := AppendNal(f, nals[0]);
      assert AppendNals(f, nals) == AppendNals(g, nals[1..]);
      AppendNalsRecords(g, nals[1..]);
      NalRecordsStep(f.packets, f.buffer, g.packets, g.buffer, nals);
    }
  }

  lemma NalRecordsStep(recs0: seq<RtpPacketInfo>, buf0: seq<byte>, recs1: seq<RtpPacketInfo>, buf1: seq<byte>,
                       nals: seq<seq<byte>>)
    requires nals != []
    requires buf1 == buf0 + Be32(|nals[0]|) + nals[0]
    requires recs1 == recs0 + [RtpPacketInfo(|buf0| + 4, |nals[0]|, [])]
    ensures recs1 + NalRecords(|buf1|, nals[1..]) == recs0 + NalRecords(|buf0|, nals)
  {
    var r := RtpPacketInfo(|buf0| + 4, |nals[0]|, []);
    NalRecordsCons(|buf0|, nals, |buf1|);
    AppendAssoc(recs0, [r], NalRecords(|buf1|, nals[1..]));
  }

  lemma NalRecordsCons(start: nat, nals: seq<seq<byte>>, next: nat)
    requires nals != []
    requires next == start + 4 + |nals[0]|
    ensures NalRecords(start, nals) == [RtpPacketInfo(start + 4, |nals[0]|, [])] + NalRecords(next, nals[1..])
  {
  }

  /** `AppendNals` raises the intra flag exactly when some unit has an intra
      type, and leaves the frame's metadata alone. */
  lemma {:induction false} AppendNalsIntra(f: Frame, nals: seq<seq<byte>>)
    requires AllCarriable(nals)
    ensures AppendNals(f, nals).intra == (f.intra || HasIntraNal(nals))
    ensures SameMetadata(f, AppendNals(f, nals))
    decreases |nals|
  {
    if nals != [] {
      var g := AppendNal(f, nals[0]);
      AppendNalsIntra(g, nals[1..]);
      if HasIntraNal(nals[1..]) {
        var k :| 0 <= k < |nals[1..]| && 0 < |nals[1..][k]| && IsIntraType(Low5(nals[1..][k][0]));
        assert nals[k + 1] == nals[1..][k];
      }
      if HasIntraNal(nals) && !IsIntraType(Low5(nals[0][0])) {
        var k :| 0 <= k < |nals| && 0 < |nals[k]| && IsIntraType(Low5(nals[k][0]));
        assert k != 0;
        assert nals[1..][k - 1] == nals[k];
      }
    }
  }

  /** `AppendNals` keeps every record inside the buffer. */
  lemma {:induction false} AppendNalsRecordsInBuffer(f: Frame, nals: seq<seq<byte>>)
    requires AllCarriable(nals)
    ensures RecordsInBuffer(f) ==> RecordsInBuffer(AppendNals(f, nals))
    decreases |nals|
  {
    if nals != [] {
      AppendNalKeepsRecordsInBuffer(f, nals[0]);
      AppendNalsRecordsInBuffer(AppendNal(f, nals[0]), nals[1..]);
    }
  }

  lemma AddFragmentValid(d: Depacketizer, payload: seq<byte>)
    requires 2 <= |payload|
    ensures AddFragment(d, payload).out.Some? ==> AddFragment(d, payload).out.value == AddFragment(d, payload).next.frame
    ensures d.frame.intra ==> AddFragment(d, payload).next.frame.intra
    ensures SameMetadata(d.frame, AddFragment(d, payload).next.frame)
    ensures Valid(d) ==> Valid(AddFragment(d, payload).next)
  {
    if |payload| >= 3 && Valid(d) {
      var d1 := if StartBit(payload[2]) then StartFragment(d, payload) else d;
      assert RecordsInBuffer(d1.frame) by {
        forall i | 0 <= i < |d1.frame.packets|
          ensures d1.frame.packets[i].pos + d1.frame.packets[i].size <= |d1.frame.buffer|
        {
          assert d1.frame.packets[i] == d.frame.packets[i];
        }
      }
      if d1.startedFrag {
        var f3 := AppendFragmentBody(d1.frame, payload);
        assert RecordsInBuffer(f3) by {
          forall i | 0 <= i < |f3.packets|
            ensures f3.packets[i].pos + f3.packets[i].size <= |f3.buffer|
          {
            if i < |d1.frame.packets| {
              assert f3.packets[i] == d1.frame.packets[i];
            }
          }
        }
      }
    }
  }
}

=== FILE: media_frame.dfy ===
/** The part of `MediaFrame` the depacketizer touches, as an immutable value.

    The class itself is not part of this model; its operations are given
    the meaning their uses in the depacketizer rely on:
    - `AppendMedia(data, len)` appends `len` bytes and returns the offset
      where they start;
    - `AddRtpPacket(pos, size, prefix, prefixLen)` appends one record that
      maps a buffer region back to the packet it came from;
    - `Reset()` empties the buffer and the records, clears the intra flag
      and puts the timestamp back to the "no timestamp" sentinel;
    - `set4(GetData(), at, n)` overwrites four bytes in place. */
module MediaFrame {
  import opened Bytes

  /** `(DWORD)-1`, the timestamp of a frame that has not been given one yet. */
  const NoTimestamp: nat := 0xFFFF_FFFF

  /** One `AddRtpPacket` record: `size` bytes of the buffer from `pos` on came
      from one packet, whose first bytes `prefix` were stripped off. */
  datatype RtpPacketInfo = RtpPacketInfo(pos: nat, size: nat, prefix: seq<byte>)

  datatype Frame = Frame(
    buffer: seq<byte>,
    packets: seq<RtpPacketInfo>,
    intra: bool,
    timestamp: nat,
    clockRate: nat,
    time: nat,
    senderTime: nat,
    ssrc: nat)

  /** Every record names a region that lies inside the buffer. */
  predicate RecordsInBuffer(f: Frame)
  {
    forall i :: 0 <= i < |f.packets| ==> f.packets[i].pos + f.packets[i].size <= |f.buffer|
  }

  /** Everything but the buffer, the records and the intra flag. */
  predicate SameMetadata(f: Frame, g: Frame)
  {
    f.timestamp == g.timestamp && f.clockRate == g.clockRate && f.time == g.time
    && f.senderTime == g.senderTime && f.ssrc == g.ssrc
  }

  /** A new video frame with the given clock rate and no timestamp. */
  function NewFrame(clockRate: nat): (f: Frame)
    ensures f.buffer == [] && f.packets == [] && !f.intra
    ensures f.timestamp == NoTimestamp && f.clockRate == clockRate
  {
    Frame([], [], false, NoTimestamp, clockRate, 0, 0, 0)
  }

  /** `Reset()`. */
  function Reset(f: Frame): (g: Frame)
    ensures g.buffer == [] && g.packets == [] && !g.intra && g.timestamp == NoTimestamp
    ensures g.clockRate == f.clockRate && g.time == f.time && g.senderTime == f.senderTime
    ensures g.ssrc == f.ssrc
  {
    f.(buffer := [], packets := [], intra := false, timestamp := NoTimestamp)
  }

  /** `SetIntra(true)`. */
  function SetIntra(f: Frame): (g: Frame)
    ensures g.intra
    ensures g.buffer == f.buffer && g.packets == f.packets && SameMetadata(f, g)
  {
    f.(intra := true)
  }

  /** `AppendMedia(data, |data|)`: the new frame and the offset at which `data` starts. */
  function AppendMedia(f: Frame, data: seq<byte>): (r: (Frame, nat))
    ensures r.0.buffer == f.buffer + data && r.1 == |f.buffer|
    ensures r.0.buffer[r.1..] == data
    ensures r.0.packets == f.packets && r.0.intra == f.intra && SameMetadata(f, r.0)
  {
    (f.(buffer := f.buffer + data), |f.buffer|)
  }

  /** `AddRtpPacket(pos, size, prefix, |prefix|)`. */
  function AddRtpPacket(f: Frame, pos: nat, size: nat, prefix: seq<byte>): (g: Frame)
    ensures |g.packets| == |f.packets| + 1 && g.packets[..|f.packets|] == f.packets
    ensures g.packets[|f.packets|] == RtpPacketInfo(pos, size, prefix)
    ensures g.buffer == f.buffer && g.intra == f.intra && SameMetadata(f, g)
  {
    f.(packets := f.packets + [RtpPacketInfo(pos, size, prefix)])
  }

  /** `set4(GetData(), at, n)`: the four bytes at `at` now read back as
      `n` modulo 2^32; no other byte changes. */
  function Set4(f: Frame, at: nat, n: nat): (g: Frame)
    requires at + 4 <= |f.buffer|
    ensures |g.buffer| == |f.buffer|
    ensures ReadBe32(g.buffer, at) == n % Two32
    ensures forall i :: 0 <= i < |f.buffer| && !(at <= i < at + 4) ==> g.buffer[i] == f.buffer[i]
    ensures g.packets == f.packets && g.intra == f.intra && SameMetadata(f, g)
  {
    var g := f.(buffer := f.buffer[..at] + Be32(n) + f.buffer[at + 4..]);
    ReadBe32Be32(n);
    assert g.buffer[at..at + 4] == Be32(n);
    g
  }
}

=== FILE: seq_facts.dfy ===
/** Facts about sequence concatenation, stated generically so that the
    solver proves them away from any particular element type. */
module SeqFacts {

  lemma AppendAssoc<T>(a: seq<T>, b: seq<T>, c: seq<T>)
    ensures (a + b) + c == a + (b + c)
  {
  }

  lemma DropPrefix<T>(a: seq<T>, b: seq<T>)
    ensures (a + b)[|a|..] == b
  {
  }

  lemma SplitThree<T>(s: seq<T>, i: nat, j: nat)
    requires i <= j <= |s|
    ensures s[..i] + s[i..j] + s[j..] == s
  {
  }

  /** `a` is `b` with some elements left out: same order, no element
      added or repeated. */
  predicate Subsequence<T(==)>(a: seq<T>, b: seq<T>)
    decreases |b|
  {
    if a == [] then true
    else if b == [] then false
    else (a[0] == b[0] && Subsequence(a[1..], b[1..])) || Subsequence(a, b[1..])
  }

  /** An element kept at the head of both sequences. */
  lemma SubsequenceKeep<T>(h: T, a: seq<T>, b: seq<T>)
    requires Subsequence(a, b)
    ensures Subsequence([h] + a, [h] + b)
  {
    assert ([h] + a)[1..] == a && ([h] + b)[1..] == b;
  }

  /** An element left out at the head of the longer sequence. */
  lemma SubsequenceSkip<T>(h: T, a: seq<T>, b: seq<T>)
    requires Subsequence(a, b)
    ensures Subsequence(a, [h] + b)
  {
    assert ([h] + b)[1..] == b;
  }

  lemma IndexAfter<T>(a: seq<T>, b: seq<T>, i: nat)
    requires i < |b|
    ensures (a + b)[|a| + i] == b[i]
  {
  }
}

=== FILE: unit_stream.dfy ===
/** The frame buffer format the depacketizer produces: each elementary unit
    preceded by its length as a 4-byte big-endian number.  `Framed` writes
    it, `Unframe` reads it back, and the two are inverse. */
module UnitStream {
  import opened Bytes
  import opened Wrappers
  import opened SeqFacts

  /** Units that a 4-byte length prefix can describe exactly. */
  predicate Fits(units: seq<seq<byte>>)
  {
    forall i :: 0 <= i < |units| ==> |units[i]| < Two32
  }

  /** Each unit as `Be32(|u|) + u`, in order. */
  function Framed(units: seq<seq<byte>>): (r: seq<byte>)
  {
    if units == [] then [] else Be32(|units[0]|) + units[0] + Framed(units[1..])
  }

  /** The units of a length-prefixed buffer, or `None` when a prefix is cut
      short or announces more bytes than remain. */
  function Unframe(buf: seq<byte>): (r: Option<seq<seq<byte>>>)
    decreases |buf|
  {
    if buf == [] then Some([])
    else if |buf| < 4 then None
    else
      var n := ReadBe32(buf, 0);
      if |buf| < 4 + n then None
      else
        match Unframe(buf[4 + n..])
        case None => None
        case Some(rest) => Some([buf[4..4 + n]] + rest)
  }

  /** The units' bytes with the prefixes stripped. */
  function Concat(units: seq<seq<byte>>): (r: seq<byte>)
  {
    if units == [] then [] else units[0] + Concat(units[1..])
  }

  /** Number of bytes `Framed(units)` occupies. */
  lemma {:induction false} FramedLengthIsLength(units: seq<seq<byte>>)
    ensures |Framed(units)| == 4 * |units| + |Concat(units)|
  {
    if units != [] {
      FramedLengthIsLength(units[1..]);
    }
  }

  /** Reading a written buffer gives back the units that were written. */
  lemma {:induction false} UnframeFramed(units: seq<seq<byte>>)
    requires Fits(units)
    ensures Unframe(Framed(units)) == Some(units)
  {
    if units != [] {
      var u := units[0];
      UnframeFramed(units[1..]);
      ReadBe32Be32(|u|);
      UnframeHead(Be32(|u|), u, Framed(units[1..]));
      assert Framed(units) == Be32(|u|) + u + Framed(units[1..]);
      assert [u] + units[1..] == units;
    }
  }

  /** A 4-byte prefix holding the length of `u`, then `u`, then a readable
      tail: the first unit read is `u`. */
  lemma UnframeHead(prefix: seq<byte>, u: seq<byte>, tail: seq<byte>)
    requires |prefix| == 4 && ReadBe32(prefix, 0) == |u|
    requires Unframe(tail).Some?
    ensures Unframe(prefix + u + tail) == Some([u] + Unframe(tail).value)
  {
    var buf := prefix + u + tail;
    assert buf[..4] == prefix;
    assert ReadBe32(buf, 0) == ReadBe32(prefix, 0);
    assert buf[4..4 + |u|] == u;
    assert buf[4 + |u|..] == tail;
  }

  /** A single prefixed unit reads back as itself. */
  lemma UnframeOne(u: seq<byte>)
    requires |u| < Two32
    ensures Unframe(Be32(|u|) + u) == Some([u])
  {
    assert Framed([u]) == Be32(|u|) + u + Framed([]);
    assert Be32(|u|) + u + [] == Be32(|u|) + u;
    UnframeFramed([u]);
  }

  /** A buffer that reads as `units` is exactly the one `Framed` writes. */
  lemma {:induction false} FramedUnframe(buf: seq<byte>, units: seq<seq<byte>>)
    requires Unframe(buf) == Some(units)
    ensures Framed(units) == buf
    ensures Fits(units)
    decreases |buf|
  {
    if buf != [] {
      var n := ReadBe32(buf, 0);
      var rest := Unframe(buf[4 + n..]).value;
      var u := buf[4..4 + n];
      assert units == [u] + rest;
      FramedUnframe(buf[4 + n..], rest);
      assert units[0] == u && units[1..] == rest;
      assert Be32(|u|) == buf[..4] by {
        Be32OfRead(buf[..4]);
        assert ReadBe32(buf[..4], 0) == n;
      }
      assert Framed(units) == Be32(|u|) + u + Framed(rest);
      SplitThree(buf, 4, 4 + n);
    }
  }

  /** Writing the first unit after `before`, then the rest. */
  lemma FramedCons(before: seq<byte>, units: seq<seq<byte>>)
    requires units != []
    ensures before + Be32(|units[0]|) + units[0] + Framed(units[1..]) == before + Framed(units)
  {
    assert Framed(units) == Be32(|units[0]|) + units[0] + Framed(units[1..]);
  }

  lemma {:induction false} FramedAppend(a: seq<seq<byte>>, b: seq<seq<byte>>)
    ensures Framed(a + b) == Framed(a) + Framed(b)
  {
    if a != [] {
      assert (a + b)[1..] == a[1..] + b;
      FramedAppend(a[1..], b);
    } else {
      assert a + b == b;
    }
  }

  /** Units written after a readable buffer are read after its units. */
  lemma UnframeAppend(buf: seq<byte>, units: seq<seq<byte>>)
    requires Unframe(buf).Some? && Fits(units)
    ensures Unframe(buf + Framed(units)) == Some(Unframe(buf).value + units)
  {
    var before := Unframe(buf).value;
    FramedUnframe(buf, before);
    FramedAppend(before, units);
    assert Fits(before + units) by {
      forall i | 0 <= i < |before + units| ensures |(before + units)[i]| < Two32 {
        if i < |before| {
          assert (before + units)[i] == before[i];
        } else {
          assert (before + units)[i] == units[i - |before|];
        }
      }
    }
    UnframeFramed(before + units);
  }

  /** One unit written after a readable buffer is read after its units. */
  lemma UnframeSnoc(buf: seq<byte>, u: seq<byte>)
    requires Unframe(buf).Some? && |u| < Two32
    ensures Unframe(buf + Be32(|u|) + u) == Some(Unframe(buf).value + [u])
  {
    assert Framed([u]) == Be32(|u|) + u + Framed([]);
    assert Be32(|u|) + u + [] == Be32(|u|) + u;
    UnframeAppend(buf, [u]);
    AppendAssoc(buf, Be32(|u|), u);
  }
}

=== FILE: wrappers.dfy ===
/** The optional value used where the depacketizer returns either a frame pointer or null. */
module Wrappers {

  datatype Option<+T> = None | Some(value: T)

}
